=== FILE: README.md ===
# sd-streams core, modelled in Dafny

A model of the core of sd-streams, a TypeScript implementation of the WHATWG
Streams Standard, with proofs about it. It covers four parts:

- **Readable-stream internals** (`src/readable-internals.ts`). This is the
  state machine of a default readable stream, its default reader and its
  default controller: close, error, cancel, attaching and releasing a reader,
  read requests, enqueue, and the pull coalescing logic. Module
  `ReadableInternals` holds the operations. Module `ReadableInvariants` holds
  a step relation over them and the invariants every step keeps.
- **The text encoder transform**
  (`packages/stream-text-encoding/src/encoder-stream.ts`), in module
  `EncoderStream`. A high surrogate at the end of a chunk is held back and
  prepended to the next chunk, so a surrogate pair split across chunks
  reaches the host encoder whole. The host encoder is a function parameter.
- **The TransformStream constructor** (`packages/streams/src/transform-stream.ts`),
  in module `TransformStream`: validation order, defaults, brand-checked
  accessors and the identity transform algorithm.
- **The WritableStream API layer** (`packages/streams/src/writable-stream.ts`),
  in module `WritableStream`: constructor checks and defaults, the `locked`,
  `abort` and `getWriter` guards, and `createWritableStream`.

## How the JavaScript is modelled

- **Values and promises** (module `JsValues`):
  - A promise is a settle-once cell (`Pending`, `Fulfilled`, `Rejected`).
  - Settling a settled promise is a no-op, as with JavaScript's
    resolve/reject.
- **Read requests:**
  - Every read-request promise a stream ever created lives in the stream's
    `requests` store, indexed by request id.
  - The reader's `readRequests` list holds the ids still pending.
  - `settleOrder` logs the ids in the order they were settled. This makes
    "read requests settle in the order they were issued" a property that can
    be stated and proved.
- **Operations that mutate state and then throw** return a `Completion`: the
  new state together with either a value or the thrown error. An example is
  enqueue, which errors the stream and then rethrows.
- **Assertions become preconditions.** The source's `// Assert:` comments are
  what it demands of its callers, so they become `requires` clauses. This
  applies to close, controller close and enqueue, fulfilling a read request,
  reading through a reader, and releasing a reader.
- **The pull promise** is not awaited. Its two outcomes are separate
  operations that a caller (or the step relation) applies later:
  `PullSucceeded` and `PullFailed`. `pullInvocations` counts how many times
  the pull algorithm was started.
- **Brand checks** (symbol-keyed properties) are a constructor tag on the
  receiver datatype.
- **Numbers:** sizes and high-water marks are integers.
- **Helper files that are not part of this model.** `shared-internals` and
  `queue-mixin` are replaced by small definitions that follow the Streams
  Standard: `SharedInternals` and `SizeQueue`.
  - `ValidateAndNormalizeHighWaterMark` refuses a negative mark with a
    RangeError.
  - `EnqueueValueWithSize` refuses a negative size with a RangeError.

## The encoder's surrogate property, stated precisely

It is tempting to say that the text handed to `encode` never ends in a high
surrogate. That is not what `transform` guarantees.
`EncoderStream.HandedTextMayEndInHighSurrogate` shows a counterexample: a
chunk ending in two high surrogates, `[0xD800, 0xD801]`, hands `[0xD800]` to
`encode` and carries only `0xD801`.

This is not a defect. A high surrogate followed by another high surrogate
forms no pair, so no pair is cut. The property that does hold is "no cut
between two `encode` calls separates a surrogate pair"
(`EncoderStream.NoSurrogatePairIsCut`). It is the property the output
depends on. With a host encoder for which such cuts are invisible,
`EncoderStream.ChunkingIsInvisible` proves that the bytes enqueued over all
transforms and the final flush equal the encoding of the whole input,
however the input was chunked.

## Model

| member | source | states |
|---|---|---|
| ReadableInternals.SettleAll | src/readable-internals.ts:189-191 | settling a list of requests settles exactly the listed entries of the store with the outcome and leaves every other entry as it was |
| ReadableInternals.GetNumReadRequests | src/readable-internals.ts:149-156 | zero without a reader, otherwise the length of the reader's pending list |
| ReadableInternals.AddReadRequest | src/readable-internals.ts:158-165 | a new pending request gets the next id and is appended to the reader's list; nothing else changes |
| ReadableInternals.ReadableStreamClose | src/readable-internals.ts:180-195 | the stream becomes closed; every pending request is fulfilled as done, in list order, the list is emptied and the closed promise resolved; other requests are untouched |
| ReadableInternals.ReadableStreamCancel | src/readable-internals.ts:167-178 | closed resolves at once and errored rejects with the stored error, both with no state change; readable is closed and the reason reaches the cancel steps exactly once |
| ReadableInternals.ReadableStreamError | src/readable-internals.ts:197-222 | a non-readable stream is refused with a RangeError and left untouched; otherwise errored with the error stored, every pending request and the closed promise rejected with it, and the list emptied |
| ReadableInternals.InitialClosedPromise | src/readable-internals.ts:244-255 | the closed promise a new reader gets is pending, resolved or rejected with the stored error exactly as the stream is readable, closed or errored |
| ReadableInternals.ReaderGenericInitialize | src/readable-internals.ts:241-256 | reader and stream are linked both ways and nothing else about the stream changes |
| ReadableInternals.ReaderGenericRelease | src/readable-internals.ts:258-276 | an ownerless reader is refused with a TypeError; otherwise both links are cleared and the closed promise ends rejected with a TypeError, either the existing one (readable) or a replacement (closed or errored) |
| ReadableInternals.FulfillReadRequest | src/readable-internals.ts:292-300 | only the oldest pending request is fulfilled with the chunk; it leaves the list and is logged as settled |
| ReadableInternals.DefaultReaderRead | src/readable-internals.ts:278-290 | closed gives an immediate done result and errored an immediate rejection with the stored error, both without a state change; readable delegates to the pull steps |
| ReadableInternals.GetDesiredSize | src/readable-internals.ts:309-318 | none when errored, 0 when closed, otherwise the high-water mark minus the queued total |
| ReadableInternals.ControllerClose | src/readable-internals.ts:320-327 | close is recorded as requested; the stream closes iff the queue is empty |
| ReadableInternals.ControllerEnqueue | src/readable-internals.ts:329-356 | with a waiting request the chunk goes to the oldest one, and the queue, the state, the other requests and the reader's owner and closed promise are untouched; otherwise it is queued with its size, the desired size drops by it and nothing outside the controller changes, and a throwing size function or a negative size errors the stream and is rethrown; after a normal return a wanted pull is outstanding, and a new pull starts only when none was |
| ReadableInternals.ControllerError | src/readable-internals.ts:358-365 | a no-op unless readable; otherwise the queue is reset and the stream errored with the given error |
| ReadableInternals.CallPullIfNeeded | src/readable-internals.ts:367-379 | nothing happens when no pull is needed; an outstanding pull only sets pull-again; a stray pull-again flag is refused with a RangeError; otherwise one pull starts |
| ReadableInternals.PullSucceeded | src/readable-internals.ts:380-387 | the pulling flag is cleared, and the need for a pull is checked again exactly when pull-again was set |
| ReadableInternals.PullFailed | src/readable-internals.ts:388-390 | a rejected pull errors a readable stream with the pull's reason |
| ReadableInternals.PullSteps | src/readable-internals.ts:288-289 | with queued chunks the oldest one is returned and removed, closing the stream iff it drained a queue whose close was requested (only then is anything settled) and otherwise changing nothing outside the controller; with none, a new pending request is registered and the reader's owner and closed promise and the settle log are untouched; after a normal return a wanted pull is outstanding, and a new pull starts only when none was |
| ReadableInternals.NewStream | src/readable-internals.ts:46-59 | a new stream is readable, unlocked, can close or enqueue, has an empty queue with the desired size equal to the mark, and wants no pull before it has started |
| ReadableInternals.StartSucceeded | src/readable-internals.ts:367-379 | once start settles the controller is started; with no pull or pull-again outstanding this never throws; a wanted pull is then outstanding, and a new pull starts only when none was; state, reader, queue and requests are unchanged |
| ReadableInvariants.CallPullIfNeededKeepsInv | src/readable-internals.ts:367-392 | in a consistent state the pull check never hits its RangeError and keeps the invariant |
| ReadableInvariants.CloseKeepsInv | src/readable-internals.ts:180-195 | closing keeps the invariant and only settles pending requests |
| ReadableInvariants.ErrorKeepsInv | src/readable-internals.ts:197-222 | erroring keeps the invariant and only settles pending requests |
| ReadableInvariants.ControllerErrorKeepsInv | src/readable-internals.ts:358-365 | a controller error keeps the invariant |
| ReadableInvariants.CancelKeepsInv | src/readable-internals.ts:167-178 | cancel keeps the invariant |
| ReadableInvariants.AttachKeepsInv | src/readable-internals.ts:241-256 | attaching a reader to an unlocked stream keeps the invariant |
| ReadableInvariants.ReleaseKeepsInv | src/readable-internals.ts:258-276 | releasing the attached reader keeps the invariant |
| ReadableInvariants.ControllerCloseKeepsInv | src/readable-internals.ts:320-327 | controller close keeps the invariant |
| ReadableInvariants.FulfillKeepsInv | src/readable-internals.ts:292-300 | fulfilling the oldest request keeps the settle log in issue order |
| ReadableInvariants.EnqueueKeepsInv | src/readable-internals.ts:329-356 | enqueue keeps the invariant, whether it hands the chunk off, queues it or errors the stream |
| ReadableInvariants.ReadKeepsInv | src/readable-internals.ts:278-290 | a read through the attached reader never throws and keeps the invariant |
| ReadableInvariants.PullSucceededKeepsInv | src/readable-internals.ts:380-387 | the pull's fulfilment never throws and keeps the invariant |
| ReadableInvariants.StartKeepsInv | src/readable-internals.ts:367-379 | the start event never throws, keeps the invariant and starts at most one pull |
| ReadableInvariants.StepKeepsInv | src/readable-internals.ts:145-410 | every operation keeps the invariant, settles no promise twice, only appends to the settle log, and starts a new pull only when none is outstanding (unless the step is the pull's own fulfilment) |
| ReadableInvariants.TerminalStateIsSticky | src/readable-internals.ts:168-173 | once closed or errored, no operation changes the state or the stored error |
| ReadableInvariants.SettledRequestsStaySettled | src/readable-internals.ts:189-191 | a settled read request keeps its outcome across any operation |
| ReadableInvariants.RequestsSettleInIssueOrder | src/readable-internals.ts:298-299 | read requests settle in the order they were issued |
| ReadableInvariants.AtMostOnePullOutstanding | src/readable-internals.ts:371-379 | an operation starts at most one pull, and only when none was outstanding |
| ReadableInvariants.EnqueueHandsOffToOldest | src/readable-internals.ts:332-334 | with a waiting request the chunk fulfils the oldest one and is never queued |
| ReadableInvariants.ReleaseRejectsClosedPromise | src/readable-internals.ts:266-275 | after release the reader's closed promise is rejected with a TypeError whatever the stream's state |
| ReadableInvariants.ReadWhileClosePending | src/readable-internals.ts:320-326 | while a close is pending, a read returns the oldest queued chunk, and closes the stream iff that was the last one |
| ReadableInvariants.CloseWaitsForDrain | src/readable-internals.ts:320-326 | a requested close takes effect only after exactly as many reads as there were queued chunks |
| ReadableInvariants.NewStreamSatisfiesInv | src/readable-internals.ts:46-59 | a new stream satisfies the invariant (the base case) |
| ReadableInvariants.ReplayKeepsInv | src/readable-internals.ts:145-410 | any sequence of calls, refused ones leaving the stream as it was, keeps the invariant and settles no request twice |
| ReadableInvariants.ReachableStreamsSatisfyInv | src/readable-internals.ts:145-410 | every stream reachable from a new one satisfies the invariant, so the step properties hold of every stream the program can produce |
| ReadableInvariants.AttachLocksReleaseUnlocks | src/readable-internals.ts:145-147 | a stream is locked exactly while a reader is attached: attaching locks it, releasing unlocks it and no pending read requests remain counted |
| ReadableInvariants.ControllerCloseEndsAccepting | src/readable-internals.ts:304-307 | after a controller close the stream can no longer close or enqueue and never wants a pull |
| ReadableInvariants.EnqueueStartsNeededPull | src/readable-internals.ts:335-355 | queuing a chunk on a started stream with no pull outstanding and no read waiting returns normally and starts exactly one pull iff the desired size is still positive |
| ReadableInvariants.HandOffRechecksPull | src/readable-internals.ts:332-355 | handing a chunk to a waiting read on a started stream with no pull outstanding starts exactly one pull iff another read still waits or the high-water mark is positive |
| ReadableInvariants.StartPullsWhenWanted | src/readable-internals.ts:394-410 | the start event with no pull outstanding returns normally and starts exactly one pull iff a pull is wanted from the started stream |
| ReadableInvariants.ReadRegistersAndPulls | src/readable-internals.ts:278-290 | a read on an empty queue of a started stream that can still take chunks registers the next request id and leaves a pull outstanding |
| ReadableInvariants.ShouldCallPullNeverThrows | src/readable-internals.ts:394-410 | the RangeError for a null desired size cannot arise, since a stream that can close or enqueue has a desired size; a pull is wanted only from a started stream that can take chunks, and always when a read request waits |
| EncoderStream.Carry | packages/stream-text-encoding/src/encoder-stream.ts:17 | the carried text is empty or one code unit |
| EncoderStream.Transform | packages/stream-text-encoding/src/encoder-stream.ts:24-42 | the handed text followed by the new carry is the old carry followed by the chunk; a carry is kept iff that text ends in a high surrogate; empty bytes are not enqueued |
| EncoderStream.Flush | packages/stream-text-encoding/src/encoder-stream.ts:44-49 | a carried unit is encoded alone and enqueued, with no check for empty bytes; nothing is carried afterwards |
| EncoderStream.RunTransforms | packages/stream-text-encoding/src/encoder-stream.ts:24-42 | one handed text per chunk; the handed texts followed by the carry are always exactly the input so far, the carry is absent or one high surrogate, and handed text ends in a high surrogate only while a carry follows |
| EncoderStream.RunToEnd | packages/stream-text-encoding/src/encoder-stream.ts:44-49 | nothing is carried after the final flush |
| EncoderStream.TransformKeepsRunInv | packages/stream-text-encoding/src/encoder-stream.ts:26-36 | one transform keeps "handed text plus carry equals the input so far" and the carry well formed |
| EncoderStream.TransformsPreserveInput | packages/stream-text-encoding/src/encoder-stream.ts:24-42 | over any chunks, the handed texts followed by the carry are exactly the input |
| EncoderStream.NoSurrogatePairIsCut | packages/stream-text-encoding/src/encoder-stream.ts:31-36 | the cut between what was handed to the encoder and anything still to come never separates a surrogate pair |
| EncoderStream.FlushCompletesInput | packages/stream-text-encoding/src/encoder-stream.ts:44-49 | after flush, the texts handed to the encoder are exactly the whole input |
| EncoderStream.EncodeEmpty | packages/stream-text-encoding/src/encoder-stream.ts:38-41 | an encoder that splits cleanly yields no bytes for empty text |
| EncoderStream.TransformsEncodeHandedText | packages/stream-text-encoding/src/encoder-stream.ts:38-41 | with such an encoder, the bytes enqueued so far are the encoding of the text handed so far |
| EncoderStream.ChunkingIsInvisible | packages/stream-text-encoding/src/encoder-stream.ts:24-49 | with such an encoder, the bytes enqueued by all transforms and the flush are the encoding of the whole input, however it was chunked |
| EncoderStream.EmptyChunkWithoutCarryEnqueuesNothing | packages/stream-text-encoding/src/encoder-stream.ts:38-41 | an empty chunk with no carry enqueues nothing and carries nothing |
| EncoderStream.SplitSurrogatePairEncodesLikeWhole | packages/stream-text-encoding/src/encoder-stream.ts:26-36 | a pair split across two chunks enqueues exactly the bytes of the pair sent in one chunk |
| EncoderStream.HandedTextMayEndInHighSurrogate | packages/stream-text-encoding/src/encoder-stream.ts:31-36 | a chunk ending in two high surrogates hands text ending in a high surrogate to the encoder, and the cut is still safe |
| TransformStream.SetUpTransformAlgorithm | packages/streams/src/transform-stream.ts:68-86 | identity iff `transform` is missing, a call of the method iff it is a function, a TypeError otherwise |
| TransformStream.SetUpFlushAlgorithm | packages/streams/src/transform-stream.ts:87 | a no-op iff `flush` is missing, a call of the method iff it is a function, a TypeError otherwise |
| TransformStream.InvokeStart | packages/streams/src/transform-stream.ts:45 | `undefined` when `start` is missing, the call's outcome (value or throw) when it is a function, a TypeError otherwise |
| TransformStream.Construct | packages/streams/src/transform-stream.ts:21-47 | a successful construction owns the two given streams, uses the constant size exactly when no size function was given, has a flush algorithm iff `flush` was given, and holds what `start` returned, which did not throw |
| TransformStream.ConstructFailsAtFirstFailedCheck | packages/streams/src/transform-stream.ts:21-87 | construction fails iff one of its seven checks fails (the two types, the two marks, `transform`, `flush`, and the `start` call), and then with the error of the first failing check in source order |
| TransformStream.StartNotCalledAfterFailedCheck | packages/streams/src/transform-stream.ts:41-45 | `start` runs only after every other check passed: when one fails, the outcome does not depend on `start` |
| TransformStream.StartThrowRethrown | packages/streams/src/transform-stream.ts:45 | once every other check passed, what `start` throws is what the constructor throws |
| TransformStream.NonFunctionFlushRejected | packages/streams/src/transform-stream.ts:87 | a present, non-function `flush` is a TypeError once the earlier checks pass |
| TransformStream.WritableTypeCheckedFirst | packages/streams/src/transform-stream.ts:27-30 | a defined `writableType` is a RangeError whatever else is given |
| TransformStream.ReadableTypeRejected | packages/streams/src/transform-stream.ts:34-37 | a defined `readableType` is a RangeError, whatever the readable strategy and `transform` hold |
| TransformStream.NonFunctionTransformRejected | packages/streams/src/transform-stream.ts:68-72 | a present, non-function `transform` is a TypeError once the earlier checks pass |
| TransformStream.DefaultsApplied | packages/streams/src/transform-stream.ts:31-39 | an unspecified writable mark becomes 1 and an unspecified readable mark 0; given marks are kept; identity is used iff `transform` is missing |
| TransformStream.GetReadable | packages/streams/src/transform-stream.ts:49-54 | a TypeError iff the receiver is not a TransformStream |
| TransformStream.GetWritable | packages/streams/src/transform-stream.ts:56-61 | a TypeError iff the receiver is not a TransformStream |
| TransformStream.AccessorsReturnOwnedStreams | packages/streams/src/transform-stream.ts:49-61 | on a constructed TransformStream the accessors return exactly the streams it created |
| TransformStream.IdentityTransform | packages/streams/src/transform-stream.ts:76-85 | the chunk is handed to enqueue unchanged; the result is always settled, rejected iff enqueue threw and then with what it threw |
| WritableStream.Construct | packages/streams/src/writable-stream.ts:25-37 | a defined sink `type` or a negative mark is a RangeError; an unspecified mark becomes 1; a new stream is unlocked with no aborts |
| WritableStream.Locked | packages/streams/src/writable-stream.ts:39-44 | a TypeError iff the receiver is not a WritableStream; otherwise the internal locked flag |
| WritableStream.Abort | packages/streams/src/writable-stream.ts:46-54 | rejected with a TypeError iff the receiver is not a WritableStream or is locked, and then nothing changes; otherwise the reason is passed to the internal abort, whose promise is returned pending |
| WritableStream.GetWriter | packages/streams/src/writable-stream.ts:56-61 | a TypeError, with nothing changed, iff the receiver is not a WritableStream or is already locked; otherwise a writer for that stream, which is now locked |
| WritableStream.CreateWritableStream | packages/streams/src/writable-stream.ts:64-77 | an unspecified mark becomes 1 and an unspecified size algorithm the constant 1; given ones are kept; the new stream is unlocked |
| WritableStream.ConstructorAgreesWithFactory | packages/streams/src/writable-stream.ts:25-70 | for every size function and every valid mark, given or not, the constructor with a type-less sink builds the same stream as the factory given that mark and the size algorithm made from that function |
| WritableStream.LockedStreamRefusesAbort | packages/streams/src/writable-stream.ts:39-54 | whenever `locked` reports true, `abort` rejects with a TypeError and the stream is unchanged |
| WritableStream.GetWriterLocks | packages/streams/src/writable-stream.ts:50-61 | after `getWriter` on an unlocked stream, `locked` is true, a second `getWriter` fails with a TypeError, and `abort` is refused without reaching the internal abort |

## Left out

- The decoder stream is not modelled. It is a thin wrapper over the host
  `TextDecoder`, whose behaviour is not visible.
- BYOB readers and the reader brand-check helpers are not modelled. This
  covers the BYOB branch of `readableStreamError` and
  `isReadableStreamDefaultReader`/`isReadableStreamBYOBReader`. The reader is
  always a default reader, so the TypeError in `readableStreamFulfillReadRequest`
  cannot arise.
- Piping, teeing and real asynchrony are not modelled. Promise reactions are
  explicit operations (`PullSucceeded`, `PullFailed`).
- ReadableInternals.StartSucceeded: the handler for the start promise is in
  the controller setup, which is not part of this model. It follows the
  Streams Standard's SetUpReadableStreamDefaultController: set started, then
  run the pull check.
- The start algorithm itself is not modelled. Its fulfilment is the
  `StartFulfilled` event. A rejected start errors the stream through the
  controller, which is the `ErrorOp` step.
- `ReadableInvariants.Replay` treats a call whose precondition fails as a call
  that leaves the stream unchanged. The thrown error is not recorded.
- The controller's cancel steps are defined in the controller class, which is
  not part of this model. Cancel records the reason and the returned promise
  stays pending.
- The controller's pull steps come from the same class.
  `ReadableInternals.PullSteps` follows the default controller's [[PullSteps]]
  from the Streams Standard.
- The reader constructor's lock check is not a member of its own. It is the
  enabling condition of the reader-attach step in `ReadableInvariants`.
- `ReadableInternals.AddReadRequest` requires only an attached reader. It
  does not require the source's second assertion (a readable stream),
  because every caller already guarantees it.
- A read request left pending when its reader is released stays pending, as
  in the source.
- `MakeSizeAlgorithm` does not model the TypeError for a size that is not
  callable. The size is `None` or a function by construction.
- The transform controller class (transform-stream-default-controller.ts)
  and its enqueue (`transformStreamDefaultControllerEnqueue` in
  transform-internals.ts) are not part of this model. Enqueue is a parameter
  of the identity transform. Running the flush algorithm is not modelled
  either.
- TransformStream.Construct: `initializeTransformStream` and
  `setUpTransformStreamDefaultController` (transform-stream.ts:41-43) are in
  transform-internals and are not modelled. The stream's start promise and
  its backpressure slots are not modelled; the value `start` returned is
  recorded.
- TransformStream.SetUpFlushAlgorithm and TransformStream.InvokeStart:
  `createAlgorithmFromUnderlyingMethod` and `invokeOrNoop` are in
  shared-internals, which is not part of this model. Their checks follow the
  Streams Standard's CreateAlgorithmFromUnderlyingMethod and InvokeOrNoop.
  The `start` method itself is a parameter.
- The writable state machine (writable-internals) is not modelled.
  `writableStreamAbort` is recorded by its reason, and its promise stays
  pending.
- WritableStream.GetWriter: the writer constructor is in a file that is not
  part of this model. Its lock check and the locking follow the Streams
  Standard; the writer's own state and promises are not modelled.
- WritableStream.Construct: the sink setup call at writable-stream.ts:36
  (`setUpWritableStreamDefaultControllerFromUnderlyingSink`) is not modelled.
  Following the Streams Standard, that call reads the sink's start, write,
  close and abort fields and runs start. Any failure it throws is not a
  failure of this model's constructor.
- ReadableInternals.NewStream: the ReadableStream constructor is in a file
  that is not part of this model. Its handling of the source object and the
  strategy is not modelled. The new stream's slot values follow the Streams
  Standard.
- Reading strategy and transformer fields has no side effects in the model.
  Getters are not modelled.
- Numbers are integers: NaN, Infinity and fractional sizes are not modelled.
  `String(chunk)` in the encoder is not modelled; chunks are code-unit
  sequences.
- `EncoderStream.ChunkingIsInvisible` is proved only for host encoders that
  satisfy `SplitsCleanly`. The host `TextEncoder` is not visible, so the
  property UTF-8 has is a hypothesis.

=== FILE: encoder_stream.dfy ===
/** The text encoder transform (packages/stream-text-encoding/src/encoder-stream.ts):
    a chunk whose last UTF-16 code unit is a high surrogate has that unit
    held back and prepended to the next chunk, or encoded alone by flush, so
    that a surrogate pair split across chunks reaches the encoder whole. The
    host encoder is a parameter and stays uninterpreted. */
module EncoderStream {
  import opened JsValues

  type CodeUnit = u: int | 0 <= u < 0x1_0000
  type Byte = b: int | 0 <= b < 0x100

  /** The host TextEncoder's `encode`. */
  type Encode = seq<CodeUnit> -> seq<Byte>

  predicate IsHighSurrogate(u: CodeUnit)
  {
    0xD800 <= u < 0xDC00
  }

  predicate IsLowSurrogate(u: CodeUnit)
  {
    0xDC00 <= u < 0xE000
  }

  predicate EndsInHighSurrogate(text: seq<CodeUnit>)
  {
    |text| > 0 && IsHighSurrogate(text[|text| - 1])
  }

  predicate StartsWithLowSurrogate(text: seq<CodeUnit>)
  {
    |text| > 0 && IsLowSurrogate(text[0])
  }

  /** Cutting `a + b` between `a` and `b` separates no surrogate pair. */
  predicate SafeCut(a: seq<CodeUnit>, b: seq<CodeUnit>)
  {
    !(EndsInHighSurrogate(a) && StartsWithLowSurrogate(b))
  }

  /** The encoder transformer's state, its `partial_` slot: None is
      `undefined`, Some(u) the one-unit string carried to the next chunk. */
  datatype EncoderState = EncoderState(partial: Option<CodeUnit>)

  function Carry(t: EncoderState): (text: seq<CodeUnit>)
    ensures |text| <= 1
    ensures t.partial.None? <==> text == []
  {
    match t.partial
    case None => []
    case Some(u) => [u]
  }

  /** A carry is absent or a single high surrogate. */
  predicate CarryWellFormed(t: EncoderState)
  {
    t.partial.Some? ==> IsHighSurrogate(t.partial.value)
  }

  /** What one call of `transform` or `flush` did: the encoder state after
      it, the texts handed to `encode`, and the byte chunks enqueued. */
  datatype Step = Step(next: EncoderState, handed: seq<seq<CodeUnit>>, enqueued: seq<seq<Byte>>)

  /** `transform(chunk)`. The carry is prepended and cleared; a trailing
      high surrogate of the combined text is detached as the new carry; the
      rest is encoded and enqueued unless the bytes are empty. */
  function Transform(t: EncoderState, chunk: seq<CodeUnit>, encode: Encode): (r: Step)
    ensures CarryWellFormed(r.next)
    ensures |r.handed| == 1
    ensures r.handed[0] + Carry(r.next) == Carry(t) + chunk
    ensures EndsInHighSurrogate(r.handed[0]) ==> r.next.partial.Some?
    ensures r.next.partial.Some? <==> EndsInHighSurrogate(Carry(t) + chunk)
    ensures r.enqueued == (if |encode(r.handed[0])| == 0 then [] else [encode(r.handed[0])])
  {
    var combined := Carry(t) + chunk;
    if EndsInHighSurrogate(combined) then
      var text := combined[..|combined| - 1];
      var bytes := encode(text);
      assert text + [combined[|combined| - 1]] == combined;
      Step(EncoderState(Some(combined[|combined| - 1])), [text], if |bytes| != 0 then [bytes] else [])
    else
      var bytes := encode(combined);
      Step(EncoderState(None), [combined], if |bytes| != 0 then [bytes] else [])
  }

  /** `flush()`: a carried unit is encoded alone and enqueued (whatever
      the bytes), and the carry cleared; without a carry nothing happens. */
  function Flush(t: EncoderState, encode: Encode): (r: Step)
    ensures r.next.partial.None?
    ensures Flatten(r.handed) == Carry(t)
    ensures t.partial.None? ==> r.handed == [] && r.enqueued == []
    ensures t.partial.Some? ==> r.handed == [Carry(t)] && r.enqueued == [encode(Carry(t))]
  {
    match t.partial
    case None => Step(t, [], [])
    case Some(u) =>
      assert Flatten([[u]]) == Flatten([]) + [u];
      Step(EncoderState(None), [[u]], [encode([u])])
  }

  /** Concatenation of a sequence of sequences. */
  function Flatten<T>(ss: seq<seq<T>>): seq<T>
  {
    if |ss| == 0 then [] else Flatten(ss[..|ss| - 1]) + ss[|ss| - 1]
  }

  lemma FlattenAppend<T>(ss: seq<seq<T>>, tail: seq<seq<T>>)
    ensures Flatten(ss + tail) == Flatten(ss) + Flatten(tail)
    decreases |tail|
  {
    if |tail| == 0 {
      assert ss + tail == ss;
    } else {
      var front := tail[..|tail| - 1];
      assert (ss + tail)[..|ss + tail| - 1] == ss + front;
      FlattenAppend(ss, front);
    }
  }

  /** The state after a sequence of `transform` calls: the encoder state and
      everything handed to `encode` and enqueued so far. */
  datatype Run = Run(t: EncoderState, handed: seq<seq<CodeUnit>>, enqueued: seq<seq<Byte>>)

  /** Feeds the chunks in order to a fresh encoder. One text is handed to
      `encode` per chunk, and the texts handed so far followed by the carry
      are always exactly the input so far. */
  function RunTransforms(chunks: seq<seq<CodeUnit>>, encode: Encode): (r: Run)
    ensures |r.handed| == |chunks|
    ensures RunInv(r.handed, r.t, Flatten(chunks))
  {
    if |chunks| == 0 then Run(EncoderState(None), [], [])
    else
      var front := chunks[..|chunks| - 1];
      var prev := RunTransforms(front, encode);
      var step := Transform(prev.t, chunks[|chunks| - 1], encode);
      TransformKeepsRunInv(prev.handed, prev.t, Flatten(front), chunks[|chunks| - 1], encode);
      Run(step.next, prev.handed + step.handed, prev.enqueued + step.enqueued)
  }

  /** Every `transform` call followed by `flush`. */
  function RunToEnd(chunks: seq<seq<CodeUnit>>, encode: Encode): (r: Run)
    ensures r.t.partial.None?
  {
    var run := RunTransforms(chunks, encode);
    var step := Flush(run.t, encode);
    Run(step.next, run.handed + step.handed, run.enqueued + step.enqueued)
  }

  /** What holds after any number of `transform` calls: the texts handed
      to `encode`, followed by the carry, are exactly the input so far; the
      carry is absent or one high surrogate; and the text handed so far
      ends in a high surrogate only when a high-surrogate carry follows. */
  ghost predicate RunInv(handed: seq<seq<CodeUnit>>, t: EncoderState, input: seq<CodeUnit>)
  {
    && Flatten(handed) + Carry(t) == input
    && CarryWellFormed(t)
    && (EndsInHighSurrogate(Flatten(handed)) ==> t.partial.Some?)
  }

  lemma TransformKeepsRunInv(handed: seq<seq<CodeUnit>>, t: EncoderState, input: seq<CodeUnit>,
                             chunk: seq<CodeUnit>, encode: Encode)
    requires RunInv(handed, t, input)
    ensures var step := Transform(t, chunk, encode);
      RunInv(handed + step.handed, step.next, input + chunk)
  {
    var step := Transform(t, chunk, encode);
    HandedAppend(handed, step);
    StepKeepsInput(handed, t, input, chunk, step);
    TransformKeepsSafeCut(handed, t, chunk, encode);
  }

  /** One `transform` appends exactly its handed text to the flattened
      history. */
  lemma HandedAppend(handed: seq<seq<CodeUnit>>, step: Step)
    requires |step.handed| == 1
    ensures Flatten(handed + step.handed) == Flatten(handed) + step.handed[0]
  {
    FlattenAppend(handed, step.handed);
    assert step.handed[..0] == [];
  }

  /** Any step that hands over its input minus the new carry keeps "handed
      text plus carry equals the input so far". */
  lemma StepKeepsInput(handed: seq<seq<CodeUnit>>, t: EncoderState, input: seq<CodeUnit>,
                       chunk: seq<CodeUnit>, step: Step)
    requires Flatten(handed) + Carry(t) == input
    requires |step.handed| == 1 && step.handed[0] + Carry(step.next) == Carry(t) + chunk
    ensures Flatten(handed + step.handed) + Carry(step.next) == input + chunk
  {
    HandedAppend(handed, step);
    var a, b, c := Flatten(handed), step.handed[0], Carry(step.next);
    assert (a + b) + c == a + (b + c);
    assert (a + Carry(t)) + chunk == a + (Carry(t) + chunk);
  }

  lemma TransformKeepsSafeCut(handed: seq<seq<CodeUnit>>, t: EncoderState, chunk: seq<CodeUnit>, encode: Encode)
    requires EndsInHighSurrogate(Flatten(handed)) ==> t.partial.Some?
    ensures var step := Transform(t, chunk, encode);
      EndsInHighSurrogate(Flatten(handed + step.handed)) ==> step.next.partial.Some?
  {
    var step := Transform(t, chunk, encode);
    var text := step.handed[0];
    HandedAppend(handed, step);
    if |text| == 0 {
      assert Flatten(handed) + text == Flatten(handed);
      if EndsInHighSurrogate(Flatten(handed)) {
        // the old carry was a high surrogate and, with nothing handed,
        // it is still the last unit of the combined text
        assert Carry(t) + chunk == [t.partial.value];
      }
    } else {
      var all := Flatten(handed) + text;
      assert all[|all| - 1] == text[|text| - 1];
    }
  }

  lemma {:induction false} TransformsPreserveInput(chunks: seq<seq<CodeUnit>>, encode: Encode)
    ensures var r := RunTransforms(chunks, encode);
      RunInv(r.handed, r.t, Flatten(chunks))
  {
    if |chunks| > 0 {
      var front := chunks[..|chunks| - 1];
      TransformsPreserveInput(front, encode);
      var prev := RunTransforms(front, encode);
      TransformKeepsRunInv(prev.handed, prev.t, Flatten(front), chunks[|chunks| - 1], encode);
    }
  }

  /** No surrogate pair is ever cut between two `encode` calls: after any
      chunks, the cut between the text handed over and everything still to
      come (the carry, then any further input) is safe. */
  lemma NoSurrogatePairIsCut(chunks: seq<seq<CodeUnit>>, more: seq<CodeUnit>, encode: Encode)
    ensures var r := RunTransforms(chunks, encode);
      SafeCut(Flatten(r.handed), Carry(r.t) + more)
  {
    TransformsPreserveInput(chunks, encode);
  }

  /** After `flush` nothing is carried and the texts handed to `encode` are
      exactly the concatenated input. */
  lemma FlushCompletesInput(chunks: seq<seq<CodeUnit>>, encode: Encode)
    ensures Flatten(RunToEnd(chunks, encode).handed) == Flatten(chunks)
  {
    var run := RunTransforms(chunks, encode);
    TransformsPreserveInput(chunks, encode);
    FlattenAppend(run.handed, Flush(run.t, encode).handed);
  }

  /** An encoder for which a cut that separates no surrogate pair is
      invisible: UTF-8 encoding of UTF-16 text (lone surrogates becoming
      U+FFFD) behaves this way. */
  ghost predicate SplitsCleanly(encode: Encode)
  {
    forall a: seq<CodeUnit>, b: seq<CodeUnit> {:trigger encode(a + b)} ::
      SafeCut(a, b) ==> encode(a + b) == encode(a) + encode(b)
  }

  lemma EncodeEmpty(encode: Encode)
    requires SplitsCleanly(encode)
    ensures encode([]) == []
  {
    var e: seq<CodeUnit> := [];
    assert e + e == e;
    assert encode(e + e) == encode(e) + encode(e);
  }

  /** With such an encoder the bytes enqueued so far are the encoding of
      the text handed over so far. */
  lemma {:induction false} TransformsEncodeHandedText(chunks: seq<seq<CodeUnit>>, encode: Encode)
    requires SplitsCleanly(encode)
    ensures var r := RunTransforms(chunks, encode);
      Flatten(r.enqueued) == encode(Flatten(r.handed))
  {
    EncodeEmpty(encode);
    if |chunks| > 0 {
      var front := chunks[..|chunks| - 1];
      TransformsEncodeHandedText(front, encode);
      TransformsPreserveInput(front, encode);
      var prev := RunTransforms(front, encode);
      var step := Transform(prev.t, chunks[|chunks| - 1], encode);
      var text := step.handed[0];
      FlattenAppend(prev.handed, step.handed);
      FlattenAppend(prev.enqueued, step.enqueued);
      assert Flatten(step.handed) == text by {
        assert Flatten(step.handed) == Flatten(step.handed[..0]) + step.handed[0];
      }
      assert Flatten(step.enqueued) == encode(text) by {
        if |encode(text)| != 0 {
          assert Flatten(step.enqueued) == Flatten(step.enqueued[..0]) + step.enqueued[0];
        }
      }
      assert SafeCut(Flatten(prev.handed), text) by {
        if EndsInHighSurrogate(Flatten(prev.handed)) && |text| > 0 {
          // the handed text then starts with the carried high surrogate
          assert (text + Carry(step.next))[0] == (Carry(prev.t) + chunks[|chunks| - 1])[0];
        }
      }
      assert encode(Flatten(prev.handed) + text) == encode(Flatten(prev.handed)) + encode(text);
    }
  }

  /** The encoder stream as a whole: with an encoder that splits cleanly,
      the bytes enqueued by all `transform` calls and `flush` are exactly
      the encoding of the whole input text, however it was chunked. */
  lemma ChunkingIsInvisible(chunks: seq<seq<CodeUnit>>, encode: Encode)
    requires SplitsCleanly(encode)
    ensures Flatten(RunToEnd(chunks, encode).enqueued) == encode(Flatten(chunks))
  {
    var run := RunTransforms(chunks, encode);
    var step := Flush(run.t, encode);
    TransformsEncodeHandedText(chunks, encode);
    TransformsPreserveInput(chunks, encode);
    FlattenAppend(run.enqueued, step.enqueued);
    match run.t.partial
    case None =>
      assert Flatten(run.handed) == Flatten(chunks);
    case Some(u) =>
      assert Flatten(step.enqueued) == encode([u]) by {
        assert Flatten(step.enqueued) == Flatten(step.enqueued[..0]) + step.enqueued[0];
      }
      assert encode(Flatten(run.handed) + [u]) == encode(Flatten(run.handed)) + encode([u]);
  }

  /** A chunk that is empty and meets no carry makes `encode` see the empty
      text; with an encoder that yields no bytes for it, nothing is
      enqueued and nothing is carried. */
  lemma EmptyChunkWithoutCarryEnqueuesNothing(t: EncoderState, encode: Encode)
    requires t.partial.None? && encode([]) == []
    ensures Transform(t, [], encode).enqueued == []
    ensures Transform(t, [], encode).next.partial.None?
  {
  }

  /** A surrogate pair split across two chunks reaches `encode` in one
      piece, exactly as when it arrives in a single chunk, so both
      chunkings enqueue the same bytes. */
  lemma SplitSurrogatePairEncodesLikeWhole(high: CodeUnit, low: CodeUnit, encode: Encode)
    requires IsHighSurrogate(high) && !IsHighSurrogate(low)
    requires encode([]) == []
    ensures RunToEnd([[high], [low]], encode).enqueued == RunToEnd([[high, low]], encode).enqueued
    ensures RunToEnd([[high], [low]], encode).enqueued == Enqueued(encode([high, low]))
  {
    LoneHighIsCarried(high, encode);
    CarryMeetsLow(high, low, encode);
    TwoChunkRun([high], [low], encode);
    var split := RunTransforms([[high], [low]], encode);
    assert split.t.partial.None? && split.enqueued == Enqueued(encode([high, low]));
    WholePairPassesThrough(high, low, encode);
    SingleChunkRun([high, low], encode);
    var whole := RunTransforms([[high, low]], encode);
    assert whole.t.partial.None? && whole.enqueued == Enqueued(encode([high, low]));
  }

  /** The byte chunks `transform` enqueues for one encoding: none if empty. */
  function Enqueued(bytes: seq<Byte>): seq<seq<Byte>>
  {
    if |bytes| == 0 then [] else [bytes]
  }

  lemma LoneHighIsCarried(high: CodeUnit, encode: Encode)
    requires IsHighSurrogate(high) && encode([]) == []
    ensures Transform(EncoderState(None), [high], encode) == Step(EncoderState(Some(high)), [[]], [])
  {
    assert Carry(EncoderState(None)) + [high] == [high];
  }

  lemma CarryMeetsLow(high: CodeUnit, low: CodeUnit, encode: Encode)
    requires IsHighSurrogate(high) && !IsHighSurrogate(low)
    ensures Transform(EncoderState(Some(high)), [low], encode)
         == Step(EncoderState(None), [[high, low]], Enqueued(encode([high, low])))
  {
    assert Carry(EncoderState(Some(high))) + [low] == [high, low];
  }

  lemma WholePairPassesThrough(high: CodeUnit, low: CodeUnit, encode: Encode)
    requires !IsHighSurrogate(low)
    ensures Transform(EncoderState(None), [high, low], encode)
         == Step(EncoderState(None), [[high, low]], Enqueued(encode([high, low])))
  {
    assert Carry(EncoderState(None)) + [high, low] == [high, low];
  }

  lemma SingleChunkRun(chunk: seq<CodeUnit>, encode: Encode)
    ensures var step := Transform(EncoderState(None), chunk, encode);
      RunTransforms([chunk], encode) == Run(step.next, step.handed, step.enqueued)
  {
    var chunks := [chunk];
    assert chunks[..0] == [];
  }

  lemma TwoChunkRun(first: seq<CodeUnit>, second: seq<CodeUnit>, encode: Encode)
    ensures var s1 := Transform(EncoderState(None), first, encode);
            var s2 := Transform(s1.next, second, encode);
      RunTransforms([first, second], encode) == Run(s2.next, s1.handed + s2.handed, s1.enqueued + s2.enqueued)
  {
    var chunks := [first, second];
    assert chunks[..1] == [first];
    SingleChunkRun(first, encode);
  }

  /** The text handed to `encode` can itself end in a high surrogate: when
      a chunk ends in two high surrogates, only the last is carried. Such a
      unit can never pair with what follows (a high surrogate), so the cut
      is still safe. */
  lemma HandedTextMayEndInHighSurrogate(encode: Encode)
    ensures var step := Transform(EncoderState(None), [0xD800, 0xD801], encode);
      && step.handed == [[0xD800]]
      && EndsInHighSurrogate(step.handed[0])
      && step.next == EncoderState(Some(0xD801))
      && SafeCut(step.handed[0], Carry(step.next))
  {
    var combined: seq<CodeUnit> := [0xD800, 0xD801];
    assert Carry(EncoderState(None)) + combined == combined;
    assert combined[..1] == [0xD800];
  }
}

=== FILE: js_values.dfy ===
/** JavaScript values, thrown errors and settle-once promise cells, shared by
    every part of the streams model. */
module JsValues {

  /** A JavaScript value as far as the streams care: chunks, cancel reasons
      and stored errors are opaque; the two error kinds the streams throw
      themselves are distinguished. */
  datatype Value =
    | Undefined
    | Bool(b: bool)
    | Num(n: int)
    | Str(s: string)
    | Obj(id: nat)
    | Fn(fid: nat)   // a function object: `typeof v === "function"`
    | RangeErr   // a `new RangeError(...)` created by the streams
    | TypeErr    // a `new TypeError(...)` created by the streams

  datatype Option<+T> = None | Some(value: T)

  /** The result of a synchronous call: a value, or the value it threw. */
  datatype Result<+T> = Ok(value: T) | Err(error: Value)

  /** A promise as a settle-once cell. */
  datatype Promise<+T> = Pending | Fulfilled(value: T) | Rejected(reason: Value) {
    predicate IsSettled() {
      !Pending?
    }
  }

  /** Settling a promise: only a pending cell takes the outcome; settling a
      settled promise again is a no-op, as with JavaScript's resolve/reject. */
  function Settle<T>(p: Promise<T>, outcome: Promise<T>): (r: Promise<T>)
    ensures p.Pending? ==> r == outcome
    ensures p.IsSettled() ==> r == p
  {
    if p.Pending? then outcome else p
  }

  function Resolve<T>(p: Promise<T>, v: T): (r: Promise<T>)
    ensures r.IsSettled()
    ensures p.Pending? ==> r == Fulfilled(v)
  {
    Settle(p, Fulfilled(v))
  }

  function Reject<T>(p: Promise<T>, e: Value): (r: Promise<T>)
    ensures r.IsSettled()
    ensures p.Pending? ==> r == Rejected(e)
  {
    Settle(p, Rejected(e))
  }
}

=== FILE: readable_internals.dfy ===
/** The readable stream, its default reader and its default controller as
    one immutable record, and every abstract operation on them as a pure
    transition (src/readable-internals.ts).

    Promises handed out for read requests are kept in a per-stream store,
    indexed by request id, so that the model can say which request was
    settled with what; `settleOrder` records the order in which stored
    requests were settled. The asynchronous continuation of the pull
    algorithm is split into the environment events PullSucceeded and
    PullFailed. */
module ReadableInternals {
  import opened JsValues
  import SizeQueue
  import SharedInternals

  type StreamId = nat
  type RequestId = nat

  datatype StreamState = Readable | Closed | Errored

  /** The `{ value, done }` object a read promise fulfils with. */
  datatype ReadResult = ReadResult(value: Value, done: bool)

  /** A default reader: owner back-reference, closed promise, FIFO of
      pending read requests (ids into the stream's request store). */
  datatype Reader = Reader(
    owner: Option<StreamId>,
    closedPromise: Promise<()>,
    readRequests: seq<RequestId>)

  /** The default controller's slots. `pullInvocations` counts calls of the
      source's pull algorithm and `cancelReasons` records each call of the
      cancel steps, whose own behaviour is outside this model. */
  datatype Controller = Controller(
    queue: SizeQueue.Queue,
    highWaterMark: int,
    sizeAlgorithm: SharedInternals.SizeAlgorithm,
    started: bool,
    closeRequested: bool,
    pullAgain: bool,
    pulling: bool,
    pullInvocations: nat,
    cancelReasons: seq<Value>)

  datatype Stream = Stream(
    id: StreamId,
    state: StreamState,
    reader: Option<Reader>,
    storedError: Value,
    controller: Controller,
    requests: seq<Promise<ReadResult>>,
    settleOrder: seq<RequestId>)

  /** How an operation ended: normally with a value, or by throwing, in
      both cases with the stream as the operation left it. */
  datatype Completion<+T> =
    | Normal(stream: Stream, value: T)
    | Abrupt(stream: Stream, error: Value)

  /** What `read()` hands back: a promise settled on the spot, or the id of
      a read request left pending in the store. */
  datatype ReadHandle = Immediate(promise: Promise<ReadResult>) | Request(id: RequestId)

  function WithValue<T, U>(c: Completion<T>, v: U): (r: Completion<U>)
    ensures r.stream == c.stream
    ensures c.Normal? <==> r.Normal?
    ensures c.Normal? ==> r.value == v
    ensures c.Abrupt? ==> r.error == c.error
  {
    match c
    case Normal(s, _) => Normal(s, v)
    case Abrupt(s, e) => Abrupt(s, e)
  }

  function DoneResult(): ReadResult
  {
    ReadResult(Undefined, true)
  }

  /** Settles, in order, every stored request whose id is listed. */
  function SettleAll(store: seq<Promise<ReadResult>>, ids: seq<RequestId>, outcome: Promise<ReadResult>): (r: seq<Promise<ReadResult>>)
    ensures |r| == |store|
    ensures forall k :: 0 <= k < |store| ==> r[k] == (if k in ids then Settle(store[k], outcome) else store[k])
    decreases |ids|
  {
    if |ids| == 0 then store
    else
      var first := if ids[0] < |store| then store[ids[0] := Settle(store[ids[0]], outcome)] else store;
      var r := SettleAll(first, ids[1..], outcome);
      assert forall k :: 0 <= k < |store| ==> (k in ids <==> k == ids[0] || k in ids[1..]);
      r
  }

  // ---- Stream

  predicate IsReadableStreamLocked(s: Stream)
  {
    s.reader.Some?
  }

  function GetNumReadRequests(s: Stream): (n: nat)
    ensures s.reader.None? ==> n == 0
    ensures s.reader.Some? ==> n == |s.reader.value.readRequests|
  {
    if s.reader.None? then 0 else |s.reader.value.readRequests|
  }

  /** Creates a pending read request at the back of the reader's FIFO. */
  function AddReadRequest(s: Stream): (r: (Stream, RequestId))
    requires s.reader.Some?
    ensures r.1 == |s.requests|
    ensures r.0.requests == s.requests + [Pending]
    ensures r.0.reader == Some(s.reader.value.(readRequests := s.reader.value.readRequests + [r.1]))
    ensures r.0 == s.(reader := r.0.reader, requests := r.0.requests)
  {
    var id := |s.requests|;
    var rd := s.reader.value;
    (s.(reader := Some(rd.(readRequests := rd.readRequests + [id])), requests := s.requests + [Pending]), id)
  }

  /** Moves a readable stream to closed: every pending read request is
      fulfilled as done, oldest first, the list is emptied and the reader's
      closed promise is resolved. */
  function ReadableStreamClose(s: Stream): (r: Stream)
    requires s.state == Readable
    ensures r.state == Closed
    ensures s.reader.None? ==> r == s.(state := Closed)
    ensures s.reader.Some? ==>
      var rd := s.reader.value;
      && r.reader == Some(rd.(readRequests := [], closedPromise := Resolve(rd.closedPromise, ())))
      && |r.requests| == |s.requests|
      && (forall k :: 0 <= k < |s.requests| && k in rd.readRequests ==> r.requests[k] == Resolve(s.requests[k], DoneResult()))
      && (forall k :: 0 <= k < |s.requests| && k !in rd.readRequests ==> r.requests[k] == s.requests[k])
      && r.settleOrder == s.settleOrder + rd.readRequests
      && r == s.(state := Closed, reader := r.reader, requests := r.requests, settleOrder := r.settleOrder)
  {
    var closed := s.(state := Closed);
    match s.reader
    case None => closed
    case Some(rd) =>
      closed.(
        reader := Some(rd.(readRequests := [], closedPromise := Resolve(rd.closedPromise, ()))),
        requests := SettleAll(s.requests, rd.readRequests, Fulfilled(DoneResult())),
        settleOrder := s.settleOrder + rd.readRequests)
  }

  /** Cancelling: a closed stream resolves at once and the source is not
      told; an errored one rejects with its stored error; a readable one is
      closed first and then the cancel steps run, the returned promise
      staying pending until the source's cancel settles. */
  function ReadableStreamCancel(s: Stream, reason: Value): (r: (Stream, Promise<()>))
    ensures s.state == Closed ==> r == (s, Fulfilled(()))
    ensures s.state == Errored ==> r == (s, Rejected(s.storedError))
    ensures s.state == Readable ==>
      && r.0.state == Closed
      && r.0.controller.cancelReasons == s.controller.cancelReasons + [reason]
      && r.0 == ReadableStreamClose(s).(controller := r.0.controller)
      && r.1 == Pending
    ensures |r.0.controller.cancelReasons| == |s.controller.cancelReasons| + (if s.state == Readable then 1 else 0)
  {
    match s.state
    case Closed => (s, Fulfilled(()))
    case Errored => (s, Rejected(s.storedError))
    case Readable =>
      var closed := ReadableStreamClose(s);
      (closed.(controller := closed.controller.(cancelReasons := closed.controller.cancelReasons + [reason])), Pending)
  }

  /** Moves a readable stream to errored with error `e`; any other state is
      refused with a RangeError and the stream is untouched. */
  function ReadableStreamError(s: Stream, e: Value): (r: Completion<()>)
    ensures s.state != Readable <==> r.Abrupt?
    ensures r.Abrupt? ==> r.stream == s && r.error == RangeErr
    ensures r.Normal? ==>
      && r.stream.state == Errored
      && r.stream.storedError == e
      && (s.reader.None? ==> r.stream == s.(state := Errored, storedError := e))
      && (s.reader.Some? ==>
            var rd := s.reader.value;
            && r.stream.reader == Some(rd.(readRequests := [], closedPromise := Reject(rd.closedPromise, e)))
            && |r.stream.requests| == |s.requests|
            && (forall k :: 0 <= k < |s.requests| && k in rd.readRequests ==> r.stream.requests[k] == Reject(s.requests[k], e))
            && (forall k :: 0 <= k < |s.requests| && k !in rd.readRequests ==> r.stream.requests[k] == s.requests[k])
            && r.stream.settleOrder == s.settleOrder + rd.readRequests
            && r.stream == s.(state := Errored, storedError := e, reader := r.stream.reader,
                              requests := r.stream.requests, settleOrder := r.stream.settleOrder))
  {
    if s.state != Readable then Abrupt(s, RangeErr)
    else
      var errored := s.(state := Errored, storedError := e);
      match s.reader
      case None => Normal(errored, ())
      case Some(rd) =>
        Normal(errored.(
          reader := Some(rd.(readRequests := [], closedPromise := Reject(rd.closedPromise, e))),
          requests := SettleAll(s.requests, rd.readRequests, Rejected(e)),
          settleOrder := s.settleOrder + rd.readRequests), ())
  }

  // ---- Readers

  /** The closed promise a reader gets when it is attached to a stream in
      the stream's current state. */
  function InitialClosedPromise(s: Stream): (p: Promise<()>)
    ensures s.state == Readable <==> p.Pending?
    ensures s.state == Closed <==> p == Fulfilled(())
    ensures s.state == Errored <==> p == Rejected(s.storedError)
  {
    match s.state
    case Readable => Pending
    case Closed => Fulfilled(())
    case Errored => Rejected(s.storedError)
  }

  /** Links reader and stream both ways and gives the reader a fresh closed
      promise that reflects the stream's state. */
  function ReaderGenericInitialize(s: Stream, rd: Reader): (r: Stream)
    ensures r.reader.Some?
    ensures r.reader.value.owner == Some(s.id)
    ensures r.reader.value.readRequests == rd.readRequests
    ensures r.reader.value.closedPromise == InitialClosedPromise(s)
    ensures r == s.(reader := r.reader)
  {
    s.(reader := Some(rd.(owner := Some(s.id), closedPromise := InitialClosedPromise(s))))
  }

  /** Detaches a reader. A reader without owner is refused with a
      TypeError. Otherwise the closed promise ends up rejected with a
      TypeError: on a readable stream the existing promise is rejected, on
      a closed or errored one it is replaced by a freshly rejected one. */
  function ReaderGenericRelease(s: Stream, rd: Reader): (r: Completion<Reader>)
    requires rd.owner.Some? ==> rd.owner == Some(s.id) && s.reader == Some(rd)
    ensures rd.owner.None? <==> r.Abrupt?
    ensures r.Abrupt? ==> r.stream == s && r.error == TypeErr
    ensures r.Normal? ==>
      && r.stream == s.(reader := None)
      && r.value.owner.None?
      && r.value.readRequests == rd.readRequests
      && (s.state == Readable ==> r.value.closedPromise == Reject(rd.closedPromise, TypeErr))
      && (s.state != Readable ==> r.value.closedPromise == Rejected(TypeErr))
  {
    if rd.owner.None? then Abrupt(s, TypeErr)
    else
      var closed := if s.state == Readable then Reject(rd.closedPromise, TypeErr) else Rejected(TypeErr);
      Normal(s.(reader := None), rd.(owner := None, closedPromise := closed))
  }

  /** Fulfils the oldest pending read request with `{chunk, done}`. */
  function FulfillReadRequest(s: Stream, chunk: Value, done: bool): (r: Stream)
    requires s.reader.Some? && |s.reader.value.readRequests| > 0
    ensures var rd := s.reader.value;
      && r.reader == Some(rd.(readRequests := rd.readRequests[1..]))
      && |r.requests| == |s.requests|
      && (rd.readRequests[0] < |s.requests| ==>
            r.requests[rd.readRequests[0]] == Resolve(s.requests[rd.readRequests[0]], ReadResult(chunk, done)))
      && (forall k :: 0 <= k < |s.requests| && k != rd.readRequests[0] ==> r.requests[k] == s.requests[k])
      && r.settleOrder == s.settleOrder + [rd.readRequests[0]]
      && r == s.(reader := r.reader, requests := r.requests, settleOrder := r.settleOrder)
  {
    var rd := s.reader.value;
    var id := rd.readRequests[0];
    s.(reader := Some(rd.(readRequests := rd.readRequests[1..])),
       requests := SettleAll(s.requests, [id], Fulfilled(ReadResult(chunk, done))),
       settleOrder := s.settleOrder + [id])
  }

  /** `read()` on the attached default reader: done at once on a closed
      stream, rejected with the stored error on an errored one, otherwise the
      controller's pull steps. */
  function DefaultReaderRead(s: Stream): (r: Completion<ReadHandle>)
    requires s.reader.Some?
    ensures s.state == Closed ==> r == Normal(s, Immediate(Fulfilled(DoneResult())))
    ensures s.state == Errored ==> r == Normal(s, Immediate(Rejected(s.storedError)))
    ensures s.state == Readable ==> r == PullSteps(s)
  {
    match s.state
    case Closed => Normal(s, Immediate(Fulfilled(DoneResult())))
    case Errored => Normal(s, Immediate(Rejected(s.storedError)))
    case Readable => PullSteps(s)
  }

  // ---- Controller

  predicate CanCloseOrEnqueue(s: Stream)
  {
    !s.controller.closeRequested && s.state == Readable
  }

  /** null (None) once errored, 0 once closed, otherwise the high-water mark
      minus the queued total. */
  function GetDesiredSize(s: Stream): (d: Option<int>)
    ensures d.None? <==> s.state == Errored
    ensures s.state == Closed ==> d == Some(0)
    ensures s.state == Readable ==> d == Some(s.controller.highWaterMark - s.controller.queue.totalSize)
  {
    match s.state
    case Errored => None
    case Closed => Some(0)
    case Readable => Some(s.controller.highWaterMark - s.controller.queue.totalSize)
  }

  /** Requests close: the stream closes now if nothing is queued, and
      otherwise stays readable until the queue drains. */
  function ControllerClose(s: Stream): (r: Stream)
    requires CanCloseOrEnqueue(s)
    ensures r.controller.closeRequested
    ensures |s.controller.queue.entries| == 0 ==> r == ReadableStreamClose(s.(controller := r.controller))
    ensures |s.controller.queue.entries| > 0 ==> r == s.(controller := s.controller.(closeRequested := true))
    ensures r.state == Closed <==> |s.controller.queue.entries| == 0
  {
    var requested := s.(controller := s.controller.(closeRequested := true));
    if |s.controller.queue.entries| == 0 then ReadableStreamClose(requested) else requested
  }

  /** Enqueues a chunk. With a pending read request the chunk goes straight
      to the oldest one and the queue is untouched; otherwise it is measured
      and queued, and a failure of either step errors the stream and is
      rethrown. Then the pull algorithm is called if needed. */
  function ControllerEnqueue(s: Stream, chunk: Value): (r: Completion<()>)
    requires CanCloseOrEnqueue(s)
    ensures IsReadableStreamLocked(s) && GetNumReadRequests(s) > 0 ==>
      && r.stream.controller.queue == s.controller.queue
      && r.stream.reader.Some?
      && r.stream.reader.value.readRequests == s.reader.value.readRequests[1..]
      && r.stream.settleOrder == s.settleOrder + [s.reader.value.readRequests[0]]
      && |r.stream.requests| == |s.requests|
      && (s.reader.value.readRequests[0] < |s.requests| ==>
            r.stream.requests[s.reader.value.readRequests[0]]
              == Resolve(s.requests[s.reader.value.readRequests[0]], ReadResult(chunk, false)))
      && (forall k :: 0 <= k < |s.requests| && k != s.reader.value.readRequests[0] ==> r.stream.requests[k] == s.requests[k])
      && r.stream.state == s.state && r.stream.id == s.id && r.stream.storedError == s.storedError
      && r.stream.reader.value.owner == s.reader.value.owner
      && r.stream.reader.value.closedPromise == s.reader.value.closedPromise
    ensures !(IsReadableStreamLocked(s) && GetNumReadRequests(s) > 0) ==>
      match SharedInternals.ApplySize(s.controller.sizeAlgorithm, chunk)
      case Err(e) => r == Abrupt(ControllerError(s, e), e)
      case Ok(size) =>
        if size < 0 then r == Abrupt(ControllerError(s, RangeErr), RangeErr)
        else
          && r.stream.controller.queue.entries == s.controller.queue.entries + [SizeQueue.Entry(chunk, size)]
          && r.stream.controller.queue.totalSize == s.controller.queue.totalSize + size
          && r.stream.state == Readable
          && r.stream == s.(controller := r.stream.controller)
          && r.stream.controller.closeRequested == s.controller.closeRequested
          && r.stream.controller.started == s.controller.started
          && GetDesiredSize(r.stream) == Some(s.controller.highWaterMark - s.controller.queue.totalSize - size)
    ensures r.Normal? && ShouldCallPull(r.stream) ==> r.stream.controller.pulling
    ensures r.stream.controller.pullInvocations > s.controller.pullInvocations ==>
      && r.stream.controller.pullInvocations == s.controller.pullInvocations + 1
      && !s.controller.pulling && ShouldCallPull(r.stream)
  {
    if IsReadableStreamLocked(s) && GetNumReadRequests(s) > 0 then
      CallPullIfNeeded(FulfillReadRequest(s, chunk, false))
    else
      match SharedInternals.ApplySize(s.controller.sizeAlgorithm, chunk)
      case Err(e) => Abrupt(ControllerError(s, e), e)
      case Ok(size) =>
        match SizeQueue.EnqueueValueWithSize(s.controller.queue, chunk, size)
        case Err(e) => Abrupt(ControllerError(s, e), e)
        case Ok(q) => CallPullIfNeeded(s.(controller := s.controller.(queue := q)))
  }

  /** Errors the stream through its controller: a no-op unless readable;
      otherwise the queue is reset before the stream is errored. */
  function ControllerError(s: Stream, e: Value): (r: Stream)
    ensures s.state != Readable ==> r == s
    ensures s.state == Readable ==>
      && r.state == Errored
      && r.storedError == e
      && r.controller == s.controller.(queue := SizeQueue.ResetQueue())
      && ReadableStreamError(s.(controller := r.controller), e) == Normal(r, ())
  {
    if s.state != Readable then s
    else ReadableStreamError(s.(controller := s.controller.(queue := SizeQueue.ResetQueue())), e).stream
  }

  /** Starts the source's pull algorithm when it should run. An outstanding
      pull is never doubled: a further call only sets `pullAgain`. A
      `pullAgain` flag found set while no pull is outstanding is refused
      with a RangeError. */
  function CallPullIfNeeded(s: Stream): (r: Completion<()>)
    ensures !ShouldCallPull(s) ==> r == Normal(s, ())
    ensures ShouldCallPull(s) && s.controller.pulling ==> r == Normal(s.(controller := s.controller.(pullAgain := true)), ())
    ensures ShouldCallPull(s) && !s.controller.pulling && s.controller.pullAgain ==> r == Abrupt(s, RangeErr)
    ensures ShouldCallPull(s) && !s.controller.pulling && !s.controller.pullAgain ==>
      r == Normal(s.(controller := s.controller.(pulling := true, pullInvocations := s.controller.pullInvocations + 1)), ())
  {
    if !ShouldCallPull(s) then Normal(s, ())
    else if s.controller.pulling then Normal(s.(controller := s.controller.(pullAgain := true)), ())
    else if s.controller.pullAgain then Abrupt(s, RangeErr)
    else Normal(s.(controller := s.controller.(pulling := true, pullInvocations := s.controller.pullInvocations + 1)), ())
  }

  /** A new readable stream with its default controller, as the stream
      constructor leaves it before the start algorithm settles: readable,
      unlocked, an empty queue, no pull yet. The constructor is in a file that
      is not part of this model; the initial slot values follow the Streams
      Standard's InitializeReadableStream and
      SetUpReadableStreamDefaultController. */
  function NewStream(id: StreamId, highWaterMark: nat, size: SharedInternals.SizeAlgorithm): (r: Stream)
    ensures r.state == Readable && !IsReadableStreamLocked(r)
    ensures CanCloseOrEnqueue(r) && !ShouldCallPull(r)
    ensures |r.controller.queue.entries| == 0 && GetDesiredSize(r) == Some(highWaterMark)
    ensures r.requests == [] && r.settleOrder == []
  {
    Stream(id, Readable, None, Undefined,
      Controller(SizeQueue.ResetQueue(), highWaterMark, size, false, false, false, false, 0, []),
      [], [])
  }

  /** Environment event: the start algorithm's promise fulfilled. The
      controller is marked started and the pull check runs. */
  function StartSucceeded(s: Stream): (r: Completion<()>)
    requires !s.controller.started
    ensures r.stream.controller.started
    ensures r.stream.state == s.state && r.stream.reader == s.reader
    ensures r.stream.controller.queue == s.controller.queue
    ensures r.stream.requests == s.requests && r.stream.settleOrder == s.settleOrder
    ensures !s.controller.pulling && !s.controller.pullAgain ==> r.Normal?
    ensures r.Normal? && ShouldCallPull(r.stream) ==> r.stream.controller.pulling
    ensures r.stream.controller.pullInvocations > s.controller.pullInvocations ==>
      && r.stream.controller.pullInvocations == s.controller.pullInvocations + 1
      && !s.controller.pulling && ShouldCallPull(r.stream)
  {
    CallPullIfNeeded(s.(controller := s.controller.(started := true)))
  }

  /** Environment event: the outstanding pull fulfilled. The flag is
      cleared and, if another pull was asked for meanwhile, the check runs
      once more. */
  function PullSucceeded(s: Stream): (r: Completion<()>)
    requires s.controller.pulling
    ensures !s.controller.pullAgain ==> r == Normal(s.(controller := s.controller.(pulling := false)), ())
    ensures s.controller.pullAgain ==> r == CallPullIfNeeded(s.(controller := s.controller.(pulling := false, pullAgain := false)))
  {
    var settled := s.(controller := s.controller.(pulling := false));
    if s.controller.pullAgain then CallPullIfNeeded(settled.(controller := settled.controller.(pullAgain := false)))
    else Normal(settled, ())
  }

  /** Environment event: the outstanding pull rejected with `e`. */
  function PullFailed(s: Stream, e: Value): (r: Stream)
    requires s.controller.pulling
    ensures r == ControllerError(s, e)
    ensures s.state == Readable ==> r.state == Errored && r.storedError == e
  {
    ControllerError(s, e)
  }

  /** The pull should run when the stream can still take chunks, the start
      step has finished, and either a read request waits or the desired size
      is positive. */
  predicate ShouldCallPull(s: Stream)
  {
    if !CanCloseOrEnqueue(s) then false
    else if !s.controller.started then false
    else if IsReadableStreamLocked(s) && GetNumReadRequests(s) > 0 then true
    else
      // a readable stream always has a desired size, so the source's
      // RangeError for a null desired size cannot arise here
      GetDesiredSize(s).value > 0
  }

  /** The controller's pull steps, which `read()` delegates to on a
      readable stream (defined in the controller class, outside the shown
      file; this follows the default controller's [[PullSteps]] of the
      Streams Standard): take the oldest queued chunk, closing the stream if
      that drained a queue whose close was requested; or else register a
      pending read request. */
  function PullSteps(s: Stream): (r: Completion<ReadHandle>)
    requires s.reader.Some? && s.state == Readable
    ensures |s.controller.queue.entries| > 0 ==>
      && (r.Normal? ==> r.value == Immediate(Fulfilled(ReadResult(s.controller.queue.entries[0].value, false))))
      && r.stream.controller.queue.entries == s.controller.queue.entries[1..]
      && r.stream.reader.Some?
      && (r.stream.state == Readable ==> r.stream.reader.value.readRequests == s.reader.value.readRequests)
      && (r.stream.state == Readable ==> r.stream.requests == s.requests)
      && (r.stream.state == Closed <==> s.controller.closeRequested && |s.controller.queue.entries| == 1)
      && (r.stream.state == Readable ==> r.stream == s.(controller := r.stream.controller))
      && (r.stream.state == Closed ==>
            && r.stream.settleOrder == s.settleOrder + s.reader.value.readRequests
            && r.stream.reader.value.owner == s.reader.value.owner
            && r.stream.reader.value.readRequests == []
            && r.stream.reader.value.closedPromise == Resolve(s.reader.value.closedPromise, ()))
    ensures |s.controller.queue.entries| == 0 ==>
      && (r.Normal? ==> r.value == Request(|s.requests|))
      && r.stream.controller.queue == s.controller.queue
      && r.stream.state == Readable
      && r.stream.requests == s.requests + [Pending]
      && r.stream.reader.Some?
      && r.stream.reader.value.readRequests == s.reader.value.readRequests + [|s.requests|]
      && r.stream.reader.value.owner == s.reader.value.owner
      && r.stream.reader.value.closedPromise == s.reader.value.closedPromise
      && r.stream.settleOrder == s.settleOrder
      && r.stream.id == s.id && r.stream.storedError == s.storedError
    ensures r.Normal? && ShouldCallPull(r.stream) ==> r.stream.controller.pulling
    ensures r.stream.controller.pullInvocations > s.controller.pullInvocations ==>
      && r.stream.controller.pullInvocations == s.controller.pullInvocations + 1
      && !s.controller.pulling && ShouldCallPull(r.stream)
  {
    var q := s.controller.queue;
    if |q.entries| > 0 then
      var (chunk, rest) := SizeQueue.DequeueValue(q);
      var taken := s.(controller := s.controller.(queue := rest));
      var handle := Immediate(Fulfilled(ReadResult(chunk, false)));
      if s.controller.closeRequested && |rest.entries| == 0 then Normal(ReadableStreamClose(taken), handle)
      else WithValue(CallPullIfNeeded(taken), handle)
    else
      var (waiting, id) := AddReadRequest(s);
      WithValue(CallPullIfNeeded(waiting), Request(id))
  }
}

=== FILE: readable_invariants.dfy ===
/** What holds of every reachable readable stream (a new stream and
    everything any sequence of operations makes of it), and what each public
    operation keeps: the lock and the reader agree, read requests are
    settled strictly in the order they were issued and never twice, the
    reader's closed promise mirrors the stream's state, a requested close
    waits for the queue to drain, no two pulls are ever outstanding, and
    closed and errored are terminal. */
module ReadableInvariants {
  import opened JsValues
  import SizeQueue
  import opened ReadableInternals

  ghost predicate StrictlyIncreasing(ids: seq<RequestId>)
  {
    forall i, j :: 0 <= i < j < |ids| ==> ids[i] < ids[j]
  }

  /** The attached reader points back at the stream, its closed promise
      mirrors the stream's state, and its pending requests are issued in
      id order, still pending, newer than anything already settled, and
      only ever waiting on an empty queue. */
  ghost predicate ReaderInv(s: Stream, rd: Reader)
  {
    && rd.owner == Some(s.id)
    && rd.closedPromise == InitialClosedPromise(s)
    && (s.state != Readable ==> rd.readRequests == [])
    && (|rd.readRequests| > 0 ==> |s.controller.queue.entries| == 0)
    && StrictlyIncreasing(rd.readRequests)
    && (forall i :: 0 <= i < |rd.readRequests| ==>
          rd.readRequests[i] < |s.requests| && s.requests[rd.readRequests[i]].Pending?)
    && (forall i, j :: 0 <= i < |s.settleOrder| && 0 <= j < |rd.readRequests| ==>
          s.settleOrder[i] < rd.readRequests[j])
  }

  /** Everything but the close-deferral clause. */
  ghost predicate CoreInv(s: Stream)
  {
    && SizeQueue.Valid(s.controller.queue)
    && (s.controller.pullAgain ==> s.controller.pulling)
    && StrictlyIncreasing(s.settleOrder)
    && (forall i :: 0 <= i < |s.settleOrder| ==>
          s.settleOrder[i] < |s.requests| && s.requests[s.settleOrder[i]].IsSettled())
    && (s.reader.Some? ==> ReaderInv(s, s.reader.value))
  }

  ghost predicate Inv(s: Stream)
  {
    && CoreInv(s)
    && (s.controller.closeRequested && s.state == Readable ==> |s.controller.queue.entries| > 0)
  }

  /** The public operations and environment events on one stream. */
  datatype Op =
    | Cancel(reason: Value)       // stream.cancel(reason)
    | AttachReader                // new ReadableStreamDefaultReader(stream)
    | ReleaseReader               // reader.releaseLock()
    | Read                        // reader.read()
    | CloseOp                     // controller.close()
    | EnqueueOp(chunk: Value)     // controller.enqueue(chunk)
    | ErrorOp(e: Value)           // controller.error(e)
    | StartFulfilled              // the start algorithm's promise fulfilled
    | PullFulfilled               // the source's pull promise fulfilled
    | PullRejected(e: Value)      // the source's pull promise rejected

  /** When an operation may happen: the reader constructor refuses a locked
      stream; release and read act on the attached reader; close and
      enqueue are refused by the controller unless it can still close or
      enqueue; the start event happens once; pull events need an outstanding
      pull. This admits more traces than the program produces (a release
      while reads are pending, which the standard's `releaseLock` refuses;
      a fulfilment after a rejection of the same pull), so every property
      proved over these steps holds a fortiori of the program's traces. */
  predicate Enabled(s: Stream, op: Op)
  {
    match op
    case AttachReader => !IsReadableStreamLocked(s)
    case ReleaseReader => IsReadableStreamLocked(s) && s.reader.value.owner == Some(s.id)
    case Read => IsReadableStreamLocked(s)
    case CloseOp => CanCloseOrEnqueue(s)
    case EnqueueOp(_) => CanCloseOrEnqueue(s)
    case StartFulfilled => !s.controller.started
    case PullFulfilled => s.controller.pulling
    case PullRejected(_) => s.controller.pulling
    case _ => true
  }

  function Apply(s: Stream, op: Op): Stream
    requires Enabled(s, op)
  {
    match op
    case Cancel(reason) => ReadableStreamCancel(s, reason).0
    case AttachReader => ReaderGenericInitialize(s, Reader(None, Pending, []))
    case ReleaseReader => ReaderGenericRelease(s, s.reader.value).stream
    case Read => DefaultReaderRead(s).stream
    case CloseOp => ControllerClose(s)
    case EnqueueOp(chunk) => ControllerEnqueue(s, chunk).stream
    case ErrorOp(e) => ControllerError(s, e)
    case StartFulfilled => StartSucceeded(s).stream
    case PullFulfilled => PullSucceeded(s).stream
    case PullRejected(e) => PullFailed(s, e)
  }

  /** Settle-once: the later stream keeps every request store entry, a
      settled request keeps its outcome, and the settle log only grows. */
  ghost predicate Extends(s: Stream, t: Stream)
  {
    && |s.requests| <= |t.requests|
    && (forall k :: 0 <= k < |s.requests| && s.requests[k].IsSettled() ==> t.requests[k] == s.requests[k])
    && s.settleOrder <= t.settleOrder
  }

  /** Pull coalescing between two states: at most one new call of the
      pull algorithm, and only when none was outstanding (or the step
      itself settled the outstanding one); a started pull is outstanding. */
  ghost predicate PullStartsFresh(s: Stream, t: Stream, settles: bool)
  {
    && t.controller.pullInvocations <= s.controller.pullInvocations + 1
    && (t.controller.pullInvocations == s.controller.pullInvocations + 1 ==>
          (!s.controller.pulling || settles) && t.controller.pulling)
  }

  lemma ExtendsTransitive(a: Stream, b: Stream, c: Stream)
    requires Extends(a, b) && Extends(b, c)
    ensures Extends(a, c)
  {
    assert a.settleOrder == b.settleOrder[..|a.settleOrder|];
    assert b.settleOrder == c.settleOrder[..|b.settleOrder|];
    assert a.settleOrder == c.settleOrder[..|a.settleOrder|];
  }

  // ---- Building blocks: each keeps the invariant, extends the request
  // store and starts no pull while one is outstanding

  /** Pull scheduling under the invariant: it never throws, it starts a
      pull exactly when one should run and none is outstanding, and it
      touches nothing but the pull flags. */
  lemma CallPullIfNeededKeepsInv(s: Stream)
    requires Inv(s)
    ensures CallPullIfNeeded(s).Normal?
    ensures var t := CallPullIfNeeded(s).stream;
      && Inv(t) && Extends(s, t) && PullStartsFresh(s, t, false)
      && t.controller.pullInvocations == s.controller.pullInvocations + (if ShouldCallPull(s) && !s.controller.pulling then 1 else 0)
      && (ShouldCallPull(s) ==> t.controller.pulling)
      && t.controller.queue == s.controller.queue
      && t.controller.closeRequested == s.controller.closeRequested
      && t == s.(controller := t.controller)
  {
    var r := CallPullIfNeeded(s).stream;
    assert r.requests == s.requests && r.settleOrder == s.settleOrder && r.reader == s.reader;
    if s.reader.Some? {
      assert ReaderInv(r, r.reader.value);
    }
  }

  /** Settling every pending request of the attached reader (close or
      error) keeps the log increasing and settles only pending entries. */
  lemma SettleAllPendingKeepsLog(s: Stream, t: Stream)
    requires CoreInv(s) && s.reader.Some?
    requires var rd := s.reader.value;
      && |t.requests| == |s.requests|
      && (forall k :: 0 <= k < |s.requests| && k !in rd.readRequests ==> t.requests[k] == s.requests[k])
      && (forall k :: 0 <= k < |s.requests| && k in rd.readRequests ==> t.requests[k].IsSettled())
      && t.settleOrder == s.settleOrder + rd.readRequests
    ensures StrictlyIncreasing(t.settleOrder)
    ensures forall i :: 0 <= i < |t.settleOrder| ==> t.settleOrder[i] < |t.requests| && t.requests[t.settleOrder[i]].IsSettled()
    ensures Extends(s, t)
  {
    var rd := s.reader.value;
    forall i | 0 <= i < |t.settleOrder|
      ensures t.settleOrder[i] < |t.requests| && t.requests[t.settleOrder[i]].IsSettled()
    {
      if i < |s.settleOrder| {
        var k := s.settleOrder[i];
        assert k !in rd.readRequests by {
          forall j | 0 <= j < |rd.readRequests| ensures rd.readRequests[j] != k {
            assert s.settleOrder[i] < rd.readRequests[j];
          }
        }
      } else {
        assert t.settleOrder[i] == rd.readRequests[i - |s.settleOrder|];
      }
    }
  }

  lemma CloseKeepsInv(s: Stream)
    requires CoreInv(s) && s.state == Readable
    ensures var t := ReadableStreamClose(s);
      Inv(t) && Extends(s, t) && t.controller == s.controller
  {
    var r := ReadableStreamClose(s);
    if s.reader.Some? {
      SettleAllPendingKeepsLog(s, r);
      assert ReaderInv(r, r.reader.value);
    }
  }

  lemma ErrorKeepsInv(s: Stream, e: Value)
    requires CoreInv(s) && s.state == Readable
    ensures var t := ReadableStreamError(s, e).stream;
      Inv(t) && Extends(s, t) && t.controller == s.controller
  {
    var r := ReadableStreamError(s, e).stream;
    if s.reader.Some? {
      SettleAllPendingKeepsLog(s, r);
      assert ReaderInv(r, r.reader.value);
    }
  }

  lemma ControllerErrorKeepsInv(s: Stream, e: Value)
    requires Inv(s)
    ensures var t := ControllerError(s, e);
      Inv(t) && Extends(s, t) && PullStartsFresh(s, t, false)
  {
    if s.state == Readable {
      var reset := s.(controller := s.controller.(queue := SizeQueue.ResetQueue()));
      if s.reader.Some? {
        assert ReaderInv(reset, reset.reader.value);
      }
      ErrorKeepsInv(reset, e);
    }
  }

  lemma CancelKeepsInv(s: Stream, reason: Value)
    requires Inv(s)
    ensures var t := ReadableStreamCancel(s, reason).0;
      Inv(t) && Extends(s, t) && PullStartsFresh(s, t, false)
  {
    if s.state == Readable {
      CloseKeepsInv(s);
      var closed := ReadableStreamClose(s);
      var r := ReadableStreamCancel(s, reason).0;
      if r.reader.Some? {
        assert ReaderInv(closed, closed.reader.value);
        assert ReaderInv(r, r.reader.value);
      }
    }
  }

  lemma AttachKeepsInv(s: Stream)
    requires Inv(s) && !IsReadableStreamLocked(s)
    ensures var t := ReaderGenericInitialize(s, Reader(None, Pending, []));
      Inv(t) && Extends(s, t) && PullStartsFresh(s, t, false)
  {
    var r := ReaderGenericInitialize(s, Reader(None, Pending, []));
    assert ReaderInv(r, r.reader.value);
  }

  lemma ReleaseKeepsInv(s: Stream)
    requires Inv(s) && IsReadableStreamLocked(s) && s.reader.value.owner == Some(s.id)
    ensures var t := ReaderGenericRelease(s, s.reader.value).stream;
      Inv(t) && Extends(s, t) && PullStartsFresh(s, t, false)
  {
  }

  lemma ControllerCloseKeepsInv(s: Stream)
    requires Inv(s) && CanCloseOrEnqueue(s)
    ensures var t := ControllerClose(s);
      Inv(t) && Extends(s, t) && PullStartsFresh(s, t, false)
  {
    var requested := s.(controller := s.controller.(closeRequested := true));
    if s.reader.Some? {
      assert ReaderInv(requested, requested.reader.value);
    }
    if |s.controller.queue.entries| == 0 {
      CloseKeepsInv(requested);
    }
  }

  lemma FulfillKeepsInv(s: Stream, chunk: Value)
    requires Inv(s) && s.reader.Some? && |s.reader.value.readRequests| > 0
    ensures var t := FulfillReadRequest(s, chunk, false);
      && Inv(t) && Extends(s, t) && t.controller == s.controller
      && t.requests[s.reader.value.readRequests[0]] == Fulfilled(ReadResult(chunk, false))
  {
    var rd := s.reader.value;
    var id := rd.readRequests[0];
    var r := FulfillReadRequest(s, chunk, false);
    forall i | 0 <= i < |r.settleOrder|
      ensures r.settleOrder[i] < |r.requests| && r.requests[r.settleOrder[i]].IsSettled()
    {
      if i < |s.settleOrder| {
        assert s.settleOrder[i] < id;
      }
    }
    forall i, j | 0 <= i < j < |r.settleOrder| ensures r.settleOrder[i] < r.settleOrder[j] {
      if j == |s.settleOrder| {
        assert s.settleOrder[i] < rd.readRequests[0];
      }
    }
    var rd' := r.reader.value;
    forall i | 0 <= i < |rd'.readRequests|
      ensures rd'.readRequests[i] < |r.requests| && r.requests[rd'.readRequests[i]].Pending?
    {
      assert rd'.readRequests[i] == rd.readRequests[i + 1];
      assert rd.readRequests[0] < rd.readRequests[i + 1];
    }
    forall i, j | 0 <= i < |r.settleOrder| && 0 <= j < |rd'.readRequests|
      ensures r.settleOrder[i] < rd'.readRequests[j]
    {
      assert rd'.readRequests[j] == rd.readRequests[j + 1];
      assert rd.readRequests[0] < rd.readRequests[j + 1];
      if i < |s.settleOrder| {
        assert s.settleOrder[i] < rd.readRequests[j + 1];
      }
    }
    assert ReaderInv(r, rd');
  }

  /** Queuing a measured chunk when no request waits. */
  lemma QueueChunkKeepsInv(s: Stream, q: SizeQueue.Queue)
    requires Inv(s) && CanCloseOrEnqueue(s) && SizeQueue.Valid(q)
    requires !(IsReadableStreamLocked(s) && GetNumReadRequests(s) > 0)
    ensures var t := s.(controller := s.controller.(queue := q));
      Inv(t) && Extends(s, t) && PullStartsFresh(s, t, false)
  {
    var queued := s.(controller := s.controller.(queue := q));
    if queued.reader.Some? {
      assert ReaderInv(queued, queued.reader.value);
    }
  }

  lemma EnqueueKeepsInv(s: Stream, chunk: Value)
    requires Inv(s) && CanCloseOrEnqueue(s)
    ensures var r := ControllerEnqueue(s, chunk);
      && Inv(r.stream) && Extends(s, r.stream) && PullStartsFresh(s, r.stream, false)
      && (r.Abrupt? ==> r.stream.state == Errored)
  {
    if IsReadableStreamLocked(s) && GetNumReadRequests(s) > 0 {
      var f := FulfillReadRequest(s, chunk, false);
      FulfillKeepsInv(s, chunk);
      CallPullIfNeededKeepsInv(f);
      ExtendsTransitive(s, f, CallPullIfNeeded(f).stream);
    } else {
      match SharedInternals.ApplySize(s.controller.sizeAlgorithm, chunk)
      case Err(e) =>
        ControllerErrorKeepsInv(s, e);
      case Ok(size) =>
        match SizeQueue.EnqueueValueWithSize(s.controller.queue, chunk, size)
        case Err(e) =>
          ControllerErrorKeepsInv(s, e);
        case Ok(q) =>
          var queued := s.(controller := s.controller.(queue := q));
          QueueChunkKeepsInv(s, q);
          CallPullIfNeededKeepsInv(queued);
          ExtendsTransitive(s, queued, CallPullIfNeeded(queued).stream);
    }
  }

  /** Taking the oldest queued chunk on a read. */
  lemma TakeChunkKeepsInv(s: Stream)
    requires Inv(s) && IsReadableStreamLocked(s) && s.state == Readable
    requires |s.controller.queue.entries| > 0
    ensures var t := s.(controller := s.controller.(queue := SizeQueue.DequeueValue(s.controller.queue).1));
      && CoreInv(t) && Extends(s, t)
      && (!(s.controller.closeRequested && |t.controller.queue.entries| == 0) ==> Inv(t))
  {
    var taken := s.(controller := s.controller.(queue := SizeQueue.DequeueValue(s.controller.queue).1));
    assert s.reader.value.readRequests == [];
    assert ReaderInv(taken, taken.reader.value);
  }

  /** Registering a pending read request on an empty queue. */
  lemma AddRequestKeepsInv(s: Stream)
    requires Inv(s) && IsReadableStreamLocked(s) && s.state == Readable
    requires |s.controller.queue.entries| == 0
    ensures var t := AddReadRequest(s).0;
      Inv(t) && Extends(s, t) && t.controller == s.controller
  {
    var waiting := AddReadRequest(s).0;
    var rd := s.reader.value;
    var rd' := waiting.reader.value;
    forall i, j | 0 <= i < j < |rd'.readRequests| ensures rd'.readRequests[i] < rd'.readRequests[j] {
      if j == |rd.readRequests| {
        assert rd.readRequests[i] < |s.requests|;
      }
    }
    forall i | 0 <= i < |waiting.settleOrder|
      ensures waiting.settleOrder[i] < |waiting.requests| && waiting.requests[waiting.settleOrder[i]].IsSettled()
    {
      assert waiting.requests[waiting.settleOrder[i]] == s.requests[s.settleOrder[i]];
    }
    assert ReaderInv(waiting, rd');
  }

  lemma ReadKeepsInv(s: Stream)
    requires Inv(s) && IsReadableStreamLocked(s)
    ensures DefaultReaderRead(s).Normal?
    ensures var t := DefaultReaderRead(s).stream;
      Inv(t) && Extends(s, t) && PullStartsFresh(s, t, false)
  {
    if s.state == Readable {
      var q := s.controller.queue;
      if |q.entries| > 0 {
        var taken := s.(controller := s.controller.(queue := SizeQueue.DequeueValue(q).1));
        TakeChunkKeepsInv(s);
        if s.controller.closeRequested && |taken.controller.queue.entries| == 0 {
          CloseKeepsInv(taken);
          ExtendsTransitive(s, taken, ReadableStreamClose(taken));
        } else {
          CallPullIfNeededKeepsInv(taken);
          ExtendsTransitive(s, taken, CallPullIfNeeded(taken).stream);
        }
      } else {
        var waiting := AddReadRequest(s).0;
        AddRequestKeepsInv(s);
        CallPullIfNeededKeepsInv(waiting);
        ExtendsTransitive(s, waiting, CallPullIfNeeded(waiting).stream);
      }
    }
  }

  lemma PullSucceededKeepsInv(s: Stream)
    requires Inv(s) && s.controller.pulling
    ensures PullSucceeded(s).Normal?
    ensures var t := PullSucceeded(s).stream;
      Inv(t) && Extends(s, t) && PullStartsFresh(s, t, true)
  {
    var settled := s.(controller := s.controller.(pulling := false));
    if s.controller.pullAgain {
      var cleared := settled.(controller := settled.controller.(pullAgain := false));
      if cleared.reader.Some? {
        assert ReaderInv(cleared, cleared.reader.value);
      }
      CallPullIfNeededKeepsInv(cleared);
    } else {
      if settled.reader.Some? {
        assert ReaderInv(settled, settled.reader.value);
      }
    }
  }

  lemma StartKeepsInv(s: Stream)
    requires Inv(s) && !s.controller.started
    ensures StartSucceeded(s).Normal?
    ensures var t := StartSucceeded(s).stream;
      Inv(t) && Extends(s, t) && PullStartsFresh(s, t, false)
  {
    var started := s.(controller := s.controller.(started := true));
    if started.reader.Some? {
      assert ReaderInv(started, started.reader.value);
    }
    CallPullIfNeededKeepsInv(started);
  }

  // ---- Properties of the whole machine

  /** Every enabled operation keeps the invariant, keeps settled requests
      settled, and starts no pull while one is outstanding. */
  lemma StepKeepsInv(s: Stream, op: Op)
    requires Inv(s) && Enabled(s, op)
    ensures Inv(Apply(s, op))
    ensures Extends(s, Apply(s, op))
    ensures PullStartsFresh(s, Apply(s, op), op.PullFulfilled?)
  {
    match op
    case Cancel(reason) => CancelKeepsInv(s, reason);
    case AttachReader => AttachKeepsInv(s);
    case ReleaseReader => ReleaseKeepsInv(s);
    case Read => ReadKeepsInv(s);
    case CloseOp => ControllerCloseKeepsInv(s);
    case EnqueueOp(chunk) => EnqueueKeepsInv(s, chunk);
    case ErrorOp(e) => ControllerErrorKeepsInv(s, e);
    case StartFulfilled => StartKeepsInv(s);
    case PullFulfilled => PullSucceededKeepsInv(s);
    case PullRejected(e) => ControllerErrorKeepsInv(s, e);
  }

  /** Closed and errored are terminal: no operation leaves them, and an
      errored stream keeps the error it stored. */
  lemma TerminalStateIsSticky(s: Stream, op: Op)
    requires Inv(s) && Enabled(s, op) && s.state != Readable
    ensures Apply(s, op).state == s.state
    ensures Apply(s, op).storedError == s.storedError
  {
  }

  /** Settle-once: a request already settled keeps its outcome through
      any step, and the settle log only grows. */
  lemma SettledRequestsStaySettled(s: Stream, op: Op, k: nat)
    requires Inv(s) && Enabled(s, op)
    requires k < |s.requests| && s.requests[k].IsSettled()
    ensures k < |Apply(s, op).requests| && Apply(s, op).requests[k] == s.requests[k]
    ensures s.settleOrder <= Apply(s, op).settleOrder
  {
    StepKeepsInv(s, op);
  }

  /** Read requests are settled strictly in the order they were issued. */
  lemma RequestsSettleInIssueOrder(s: Stream, op: Op, i: nat, j: nat)
    requires Inv(s) && Enabled(s, op)
    requires i < j < |Apply(s, op).settleOrder|
    ensures Apply(s, op).settleOrder[i] < Apply(s, op).settleOrder[j]
  {
    StepKeepsInv(s, op);
  }

  /** A new pull starts only when none is outstanding (or in the step that
      settles the outstanding one), at most one per step, and leaves a
      pull outstanding. */
  lemma AtMostOnePullOutstanding(s: Stream, op: Op)
    requires Inv(s) && Enabled(s, op)
    ensures Apply(s, op).controller.pullInvocations <= s.controller.pullInvocations + 1
    ensures Apply(s, op).controller.pullInvocations == s.controller.pullInvocations + 1 ==>
      (s.controller.pulling ==> op.PullFulfilled?) && Apply(s, op).controller.pulling
  {
    StepKeepsInv(s, op);
  }

  /** Direct hand-off: with a read request waiting, an enqueued chunk
      fulfils the oldest request as not-done, bypasses the queue, and the
      call does not throw. */
  lemma EnqueueHandsOffToOldest(s: Stream, chunk: Value)
    requires Inv(s) && CanCloseOrEnqueue(s)
    requires IsReadableStreamLocked(s) && GetNumReadRequests(s) > 0
    ensures var r := ControllerEnqueue(s, chunk);
      && r.Normal?
      && r.stream.controller.queue == s.controller.queue
      && r.stream.requests[s.reader.value.readRequests[0]] == Fulfilled(ReadResult(chunk, false))
      && r.stream.reader.value.readRequests == s.reader.value.readRequests[1..]
  {
    FulfillKeepsInv(s, chunk);
    CallPullIfNeededKeepsInv(FulfillReadRequest(s, chunk, false));
  }

  /** Releasing the attached reader leaves the stream unlocked and the
      reader's closed promise rejected with a TypeError, whatever the
      stream's state. */
  lemma ReleaseRejectsClosedPromise(s: Stream)
    requires Inv(s) && IsReadableStreamLocked(s)
    ensures var r := ReaderGenericRelease(s, s.reader.value);
      && r.Normal?
      && !IsReadableStreamLocked(r.stream)
      && r.value.owner.None?
      && r.value.closedPromise == Rejected(TypeErr)
  {
  }

  /** Reads `k` times through the attached reader. */
  function ReadTimes(s: Stream, k: nat): (r: Stream)
    requires s.reader.Some?
    ensures r.reader.Some?
    decreases k
  {
    if k == 0 then s
    else
      var next := DefaultReaderRead(s).stream;
      assert next.reader.Some?;
      ReadTimes(next, k - 1)
  }

  /** One read of a stream whose close is pending takes the oldest chunk;
      the stream closes exactly when that read empties the queue. */
  lemma ReadWhileClosePending(s: Stream)
    requires Inv(s) && IsReadableStreamLocked(s)
    requires s.state == Readable && s.controller.closeRequested
    ensures var r := DefaultReaderRead(s);
      && r.Normal?
      && r.value == Immediate(Fulfilled(ReadResult(s.controller.queue.entries[0].value, false)))
      && r.stream.controller.queue.entries == s.controller.queue.entries[1..]
      && r.stream.controller.closeRequested
      && (r.stream.state == Closed <==> |r.stream.controller.queue.entries| == 0)
      && (r.stream.state != Closed ==> r.stream.state == Readable)
      && Inv(r.stream)
  {
    ReadKeepsInv(s);
  }

  /** Close deferral: with `n` chunks queued when close is requested, the
      stream stays readable through the first n - 1 reads and is closed by
      the n-th. */
  lemma {:induction false} CloseWaitsForDrain(s: Stream, n: nat, k: nat)
    requires Inv(s) && IsReadableStreamLocked(s)
    requires s.state == Readable && s.controller.closeRequested
    requires |s.controller.queue.entries| == n && k <= n
    ensures ReadTimes(s, k).state == (if k == n then Closed else Readable)
    decreases k
  {
    if k > 0 {
      ReadWhileClosePending(s);
      var next := DefaultReaderRead(s).stream;
      if n == 1 {
        assert k == 1;
        assert ReadTimes(s, k) == ReadTimes(next, 0);
      } else {
        CloseWaitsForDrain(next, n - 1, k - 1);
      }
    }
  }

  // ---- Reachability

  /** The invariant's base case: a new stream satisfies it. */
  lemma NewStreamSatisfiesInv(id: StreamId, highWaterMark: nat, size: SharedInternals.SizeAlgorithm)
    ensures Inv(NewStream(id, highWaterMark, size))
  {
  }

  /** Replays calls in order. A call the stream refuses (its precondition
      fails: a second reader, close or enqueue on a closing stream, a pull
      or start event that cannot happen) throws or does not occur, and
      leaves the stream as it was. */
  function Replay(s: Stream, ops: seq<Op>): Stream
    decreases |ops|
  {
    if |ops| == 0 then s
    else
      var next := if Enabled(s, ops[0]) then Apply(s, ops[0]) else s;
      Replay(next, ops[1..])
  }

  /** Every sequence of calls keeps the invariant and settles no request
      twice: with the base case, every reachable stream satisfies `Inv`. */
  lemma {:induction false} ReplayKeepsInv(s: Stream, ops: seq<Op>)
    requires Inv(s)
    ensures Inv(Replay(s, ops)) && Extends(s, Replay(s, ops))
    decreases |ops|
  {
    if |ops| > 0 {
      var next := if Enabled(s, ops[0]) then Apply(s, ops[0]) else s;
      if Enabled(s, ops[0]) {
        StepKeepsInv(s, ops[0]);
      }
      ReplayKeepsInv(next, ops[1..]);
      ExtendsTransitive(s, next, Replay(next, ops[1..]));
    }
  }

  /** Every stream reachable from a new one satisfies the invariant, so the
      properties above hold of every stream the program can produce. */
  lemma ReachableStreamsSatisfyInv(id: StreamId, highWaterMark: nat, size: SharedInternals.SizeAlgorithm, ops: seq<Op>)
    ensures Inv(Replay(NewStream(id, highWaterMark, size), ops))
  {
    NewStreamSatisfiesInv(id, highWaterMark, size);
    ReplayKeepsInv(NewStream(id, highWaterMark, size), ops);
  }

  // ---- The lock, close-or-enqueue and pull predicates

  /** A stream is locked exactly while a reader is attached: attaching a
      reader to an unlocked stream locks it, releasing that reader unlocks
      it again and leaves no pending read requests counted. */
  lemma AttachLocksReleaseUnlocks(s: Stream)
    requires !IsReadableStreamLocked(s)
    ensures var t := ReaderGenericInitialize(s, Reader(None, Pending, []));
      && IsReadableStreamLocked(t)
      && GetNumReadRequests(t) == 0
      && ReaderGenericRelease(t, t.reader.value).Normal?
      && !IsReadableStreamLocked(ReaderGenericRelease(t, t.reader.value).stream)
      && GetNumReadRequests(ReaderGenericRelease(t, t.reader.value).stream) == 0
  {
  }

  /** A stream accepts close and enqueue only until close is requested or it
      leaves the readable state: after a controller close it accepts neither
      and never asks for a pull again. */
  lemma ControllerCloseEndsAccepting(s: Stream)
    requires CanCloseOrEnqueue(s)
    ensures !CanCloseOrEnqueue(ControllerClose(s))
    ensures !ShouldCallPull(ControllerClose(s))
  {
  }

  /** The pull check's RangeError for a null desired size cannot happen: the
      check reaches the desired size only when the stream can close or
      enqueue, and then the stream is readable, so the desired size exists.
      A pull is wanted only from a started stream that can still take
      chunks, and always when a read request waits. */
  lemma ShouldCallPullNeverThrows(s: Stream)
    ensures CanCloseOrEnqueue(s) ==> GetDesiredSize(s).Some?
    ensures ShouldCallPull(s) ==> CanCloseOrEnqueue(s) && s.controller.started
    ensures CanCloseOrEnqueue(s) && s.controller.started && IsReadableStreamLocked(s) && GetNumReadRequests(s) > 0
            ==> ShouldCallPull(s)
  {
  }

  // ---- Pull coalescing, the other half: a wanted pull is started

  /** An enqueue onto a started stream with no pull outstanding and no read
      waiting queues the chunk and then starts a pull exactly when the
      desired size is still positive. */
  lemma EnqueueStartsNeededPull(s: Stream, chunk: Value)
    requires Inv(s) && CanCloseOrEnqueue(s) && s.controller.started && !s.controller.pulling
    requires GetNumReadRequests(s) == 0
    requires SharedInternals.ApplySize(s.controller.sizeAlgorithm, chunk).Ok?
    requires SharedInternals.ApplySize(s.controller.sizeAlgorithm, chunk).value >= 0
    ensures var r := ControllerEnqueue(s, chunk);
      && r.Normal?
      && (r.stream.controller.pulling <==> GetDesiredSize(r.stream).value > 0)
      && r.stream.controller.pullInvocations
           == s.controller.pullInvocations + (if r.stream.controller.pulling then 1 else 0)
  {
    EnqueueKeepsInv(s, chunk);
  }

  /** An enqueue that hands its chunk to the oldest waiting read asks for the
      next chunk at once: with no pull outstanding, it starts one exactly when
      another read still waits or the high-water mark is positive. */
  lemma HandOffRechecksPull(s: Stream, chunk: Value)
    requires Inv(s) && CanCloseOrEnqueue(s) && s.controller.started && !s.controller.pulling
    requires GetNumReadRequests(s) > 0
    ensures var r := ControllerEnqueue(s, chunk);
      && r.Normal?
      && (r.stream.controller.pulling <==> GetNumReadRequests(s) > 1 || s.controller.highWaterMark > 0)
      && r.stream.controller.pullInvocations
           == s.controller.pullInvocations + (if r.stream.controller.pulling then 1 else 0)
  {
    EnqueueKeepsInv(s, chunk);
    var f := FulfillReadRequest(s, chunk, false);
    assert SizeQueue.Valid(s.controller.queue);
    assert f.controller == s.controller;
  }

  /** The start event on a stream with no pull outstanding starts a pull
      exactly when one is wanted once the controller counts as started. */
  lemma StartPullsWhenWanted(s: Stream)
    requires Inv(s) && !s.controller.started && !s.controller.pulling
    ensures var r := StartSucceeded(s);
      && r.Normal?
      && (r.stream.controller.pulling <==> ShouldCallPull(s.(controller := s.controller.(started := true))))
      && r.stream.controller.pullInvocations
           == s.controller.pullInvocations + (if r.stream.controller.pulling then 1 else 0)
  {
  }

  /** A read that finds the queue empty on a started stream which can still
      take chunks registers its request and leaves a pull outstanding. */
  lemma ReadRegistersAndPulls(s: Stream)
    requires Inv(s) && IsReadableStreamLocked(s) && CanCloseOrEnqueue(s) && s.controller.started
    requires |s.controller.queue.entries| == 0
    ensures var r := DefaultReaderRead(s);
      && r.Normal?
      && r.value == Request(|s.requests|)
      && r.stream.controller.pulling
  {
    ReadKeepsInv(s);
  }
}

=== FILE: shared_internals.dfy ===
/** Stand-ins for the shared helpers the stream constructors call. The
    shared-internals file is not part of this model: these definitions follow
    the Streams Standard's MakeSizeAlgorithmFromSizeFunction and
    ValidateAndNormalizeHighWaterMark, restricted to integer sizes. */
module SharedInternals {
  import opened JsValues

  /** A caller-supplied size function: measures a chunk, or throws. */
  type SizeFunction = Value -> Result<int>

  /** The size algorithm a controller keeps. */
  datatype SizeAlgorithm =
    | ConstantOne                   // `() => 1`, the default
    | UserSize(fn: SizeFunction)    // calls the strategy's `size`

  /** A queuing strategy as handed to a constructor; absent fields are None. */
  datatype Strategy = Strategy(size: Option<SizeFunction>, highWaterMark: Option<int>)

  function MakeSizeAlgorithm(size: Option<SizeFunction>): (alg: SizeAlgorithm)
    ensures size.None? <==> alg == ConstantOne
  {
    match size
    case None => ConstantOne
    case Some(f) => UserSize(f)
  }

  /** Runs a size algorithm on a chunk. */
  function ApplySize(alg: SizeAlgorithm, chunk: Value): (r: Result<int>)
    ensures alg.ConstantOne? ==> r == Ok(1)
  {
    match alg
    case ConstantOne => Ok(1)
    case UserSize(f) => f(chunk)
  }

  /** A high-water mark must be non-negative; otherwise a RangeError. */
  function ValidateAndNormalizeHighWaterMark(hwm: int): (r: Result<nat>)
    ensures hwm < 0 <==> r.Err?
    ensures r.Err? ==> r.error == RangeErr
    ensures r.Ok? ==> r.value == hwm
  {
    if hwm < 0 then Err(RangeErr) else Ok(hwm)
  }
}

=== FILE: size_queue.dfy ===
/** The size-accounted FIFO a controller buffers chunks in: entries of
    (value, size) and a running total. The queue helpers live in a file that
    is not part of this model; these definitions follow the queue-with-sizes
    operations of the Streams Standard. */
module SizeQueue {
  import opened JsValues

  datatype Entry = Entry(value: Value, size: int)

  datatype Queue = Queue(entries: seq<Entry>, totalSize: int)

  /** Sum of the recorded sizes. */
  function Sum(es: seq<Entry>): int
  {
    if |es| == 0 then 0 else es[0].size + Sum(es[1..])
  }

  /** The running total is the sum of the entries' sizes, each non-negative. */
  ghost predicate Valid(q: Queue)
  {
    && q.totalSize == Sum(q.entries)
    && forall i :: 0 <= i < |q.entries| ==> q.entries[i].size >= 0
  }

  lemma {:induction false} SumAppend(es: seq<Entry>, e: Entry)
    ensures Sum(es + [e]) == Sum(es) + e.size
  {
    if |es| == 0 {
      assert es + [e] == [e];
    } else {
      assert (es + [e])[1..] == es[1..] + [e];
      SumAppend(es[1..], e);
    }
  }

  lemma {:induction false} SumNonNegative(es: seq<Entry>)
    requires forall i :: 0 <= i < |es| ==> es[i].size >= 0
    ensures Sum(es) >= 0
  {
    if |es| > 0 {
      assert forall i :: 0 <= i < |es[1..]| ==> es[1..][i].size >= 0 by {
        forall i | 0 <= i < |es[1..]| ensures es[1..][i].size >= 0 {
          assert es[1..][i] == es[i + 1];
        }
      }
      SumNonNegative(es[1..]);
    }
  }

  /** The empty queue (also what a reset leaves behind). */
  function ResetQueue(): (q: Queue)
    ensures Valid(q) && |q.entries| == 0 && q.totalSize == 0
  {
    Queue([], 0)
  }

  /** Appends a chunk with its size; a negative size is refused with a
      RangeError and leaves the queue untouched. */
  function EnqueueValueWithSize(q: Queue, v: Value, size: int): (r: Result<Queue>)
    ensures size < 0 <==> r.Err?
    ensures r.Err? ==> r.error == RangeErr
    ensures r.Ok? ==> r.value.entries == q.entries + [Entry(v, size)]
    ensures r.Ok? ==> r.value.totalSize == q.totalSize + size
    ensures Valid(q) && r.Ok? ==> Valid(r.value)
  {
    if size < 0 then Err(RangeErr)
    else
      SumAppend(q.entries, Entry(v, size));
      Ok(Queue(q.entries + [Entry(v, size)], q.totalSize + size))
  }

  /** Removes the oldest entry and returns its value. */
  function DequeueValue(q: Queue): (r: (Value, Queue))
    requires |q.entries| > 0
    ensures r.0 == q.entries[0].value
    ensures r.1.entries == q.entries[1..]
    ensures r.1.totalSize == q.totalSize - q.entries[0].size
    ensures Valid(q) ==> Valid(r.1)
  {
    (q.entries[0].value, Queue(q.entries[1..], q.totalSize - q.entries[0].size))
  }
}

=== FILE: transform_stream.dfy ===
/** The TransformStream constructor: its validation order and defaults, the
    brand-checked `readable` and `writable` accessors, and the identity
    transform algorithm a transformer without a `transform` method gets. The
    transform controller, its enqueue and the backpressure relay between the
    two sides live in files that are not part of this model: the controller's
    enqueue and the transformer's `start` method enter as parameters. */
module TransformStream {
  import opened JsValues
  import opened SharedInternals

  /** The fields of a transformer object the constructor reads; `Undefined`
      stands for a missing field. */
  datatype Transformer = Transformer(writableType: Value, readableType: Value, transform: Value,
                                     flush: Value, start: Value)

  /** The transform algorithm the controller is set up with. */
  datatype TransformAlgorithm =
    | Identity                 // no `transform` method: chunks pass through
    | CallTransform(fid: nat)  // promise-call the transformer's `transform`

  /** The flush algorithm the controller is set up with. */
  datatype FlushAlgorithm =
    | NoFlush                  // no `flush` method: resolve at once
    | CallFlush(fid: nat)      // promise-call the transformer's `flush`

  /** Calling the transformer's `start` method (by function id) with the new
      controller: the value it returns, or what it throws. */
  type StartCall = nat -> Result<Value>

  /** What the constructor hands to the stream initialisation, and the value
      the start promise is resolved with. */
  datatype Config = Config(
    writableHighWaterMark: nat,
    writableSize: SizeAlgorithm,
    readableHighWaterMark: nat,
    readableSize: SizeAlgorithm,
    algorithm: TransformAlgorithm,
    flush: FlushAlgorithm,
    startResult: Value)

  /** A receiver of the accessors. A TransformStream owns one readable and one
      writable stream (by id); any other object fails the brand check. */
  datatype Receiver =
    | TransformStreamObject(readable: nat, writable: nat, config: Config)
    | OtherObject

  /** `hwm === undefined ? default : hwm` */
  function OrDefault(hwm: Option<int>, default: nat): int
  {
    if hwm.None? then default else hwm.value
  }

  /** Chooses the transform algorithm: identity when `transform` is missing,
      a promise-call when it is a function, a TypeError otherwise. */
  function SetUpTransformAlgorithm(transform: Value): (r: Result<TransformAlgorithm>)
    ensures transform == Undefined <==> r == Ok(Identity)
    ensures r.Err? <==> transform != Undefined && !transform.Fn?
    ensures r.Err? ==> r.error == TypeErr
    ensures transform.Fn? ==> r == Ok(CallTransform(transform.fid))
  {
    match transform
    case Undefined => Ok(Identity)
    case Fn(id) => Ok(CallTransform(id))
    case _ => Err(TypeErr)
  }

  /** Builds the flush algorithm from the transformer's `flush` field, as the
      Streams Standard's CreateAlgorithmFromUnderlyingMethod does: a no-op
      when the field is missing, a promise-call when it is a function, a
      TypeError otherwise. */
  function SetUpFlushAlgorithm(flush: Value): (r: Result<FlushAlgorithm>)
    ensures flush == Undefined <==> r == Ok(NoFlush)
    ensures r.Err? <==> flush != Undefined && !flush.Fn?
    ensures r.Err? ==> r.error == TypeErr
    ensures flush.Fn? ==> r == Ok(CallFlush(flush.fid))
  {
    match flush
    case Undefined => Ok(NoFlush)
    case Fn(id) => Ok(CallFlush(id))
    case _ => Err(TypeErr)
  }

  /** Invokes the transformer's `start` field if present, as the Streams
      Standard's InvokeOrNoop does: `undefined` when it is missing, the
      call's outcome when it is a function, a TypeError when it cannot be
      called. */
  function InvokeStart(start: Value, callStart: StartCall): (r: Result<Value>)
    ensures start == Undefined ==> r == Ok(Undefined)
    ensures start.Fn? ==> r == callStart(start.fid)
    ensures start != Undefined && !start.Fn? ==> r == Err(TypeErr)
  {
    match start
    case Undefined => Ok(Undefined)
    case Fn(id) => callStart(id)
    case _ => Err(TypeErr)
  }

  /** `new TransformStream(transformer, writableStrategy, readableStrategy)`,
      with the ids of the two sub-streams it creates and the effect of
      calling `start` as parameters. */
  function Construct(transformer: Transformer, writableStrategy: Strategy, readableStrategy: Strategy,
                     readableId: nat, writableId: nat, callStart: StartCall): (r: Result<Receiver>)
    ensures r.Ok? ==> r.value.TransformStreamObject?
    ensures r.Ok? ==> r.value.readable == readableId && r.value.writable == writableId
    ensures r.Ok? ==> (r.value.config.writableSize.ConstantOne? <==> writableStrategy.size.None?)
    ensures r.Ok? ==> (r.value.config.readableSize.ConstantOne? <==> readableStrategy.size.None?)
    ensures r.Ok? ==> (r.value.config.flush == NoFlush <==> transformer.flush == Undefined)
    ensures r.Ok? && transformer.start == Undefined ==> r.value.config.startResult == Undefined
    ensures r.Ok? ==> transformer.start == Undefined || transformer.start.Fn?
    ensures r.Ok? && transformer.start.Fn? ==> callStart(transformer.start.fid) == Ok(r.value.config.startResult)
  {
    if transformer.writableType != Undefined then Err(RangeErr)
    else
      var writableSize := MakeSizeAlgorithm(writableStrategy.size);
      var writableHwm := ValidateAndNormalizeHighWaterMark(OrDefault(writableStrategy.highWaterMark, 1));
      if writableHwm.Err? then Err(writableHwm.error)
      else if transformer.readableType != Undefined then Err(RangeErr)
      else
        var readableSize := MakeSizeAlgorithm(readableStrategy.size);
        var readableHwm := ValidateAndNormalizeHighWaterMark(OrDefault(readableStrategy.highWaterMark, 0));
        if readableHwm.Err? then Err(readableHwm.error)
        else
          var algorithm := SetUpTransformAlgorithm(transformer.transform);
          if algorithm.Err? then Err(algorithm.error)
          else
            var flush := SetUpFlushAlgorithm(transformer.flush);
            if flush.Err? then Err(flush.error)
            else
              var started := InvokeStart(transformer.start, callStart);
              if started.Err? then Err(started.error)
              else
                Ok(TransformStreamObject(readableId, writableId,
                  Config(writableHwm.value, writableSize, readableHwm.value, readableSize,
                         algorithm.value, flush.value, started.value)))
  }

  /** The error a failed `start` invocation throws, `Undefined` otherwise. */
  function StartError(start: Value, callStart: StartCall): Value
  {
    var o := InvokeStart(start, callStart);
    if o.Err? then o.error else Undefined
  }

  /** The constructor's checks as an ordered list of (fails, error) pairs: the
      reference the constructor is compared against. The last one is the
      `start` call, made only once everything before it passed. */
  function ConstructionChecks(transformer: Transformer, writableStrategy: Strategy, readableStrategy: Strategy,
                              callStart: StartCall): seq<(bool, Value)>
  {
    [ (transformer.writableType != Undefined, RangeErr),
      (OrDefault(writableStrategy.highWaterMark, 1) < 0, RangeErr),
      (transformer.readableType != Undefined, RangeErr),
      (OrDefault(readableStrategy.highWaterMark, 0) < 0, RangeErr),
      (transformer.transform != Undefined && !transformer.transform.Fn?, TypeErr),
      (transformer.flush != Undefined && !transformer.flush.Fn?, TypeErr),
      (InvokeStart(transformer.start, callStart).Err?, StartError(transformer.start, callStart)) ]
  }

  /** The error of the first failing check, if any. */
  function FirstFailure(checks: seq<(bool, Value)>): Option<Value>
  {
    if |checks| == 0 then None
    else if checks[0].0 then Some(checks[0].1)
    else FirstFailure(checks[1..])
  }

  /** Construction fails exactly when one of the checks fails, and then with
      the error of the first failing check in source order. */
  lemma ConstructFailsAtFirstFailedCheck(transformer: Transformer, writableStrategy: Strategy, readableStrategy: Strategy,
                                         readableId: nat, writableId: nat, callStart: StartCall)
    ensures var r := Construct(transformer, writableStrategy, readableStrategy, readableId, writableId, callStart);
            var first := FirstFailure(ConstructionChecks(transformer, writableStrategy, readableStrategy, callStart));
            && (r.Err? <==> first.Some?)
            && (r.Err? ==> r.error == first.value)
  {
    var checks := ConstructionChecks(transformer, writableStrategy, readableStrategy, callStart);
    var c1, c2, c3, c4, c5, c6 := checks[1..], checks[2..], checks[3..], checks[4..], checks[5..], checks[6..];
    assert c1[1..] == c2 && c2[1..] == c3 && c3[1..] == c4 && c4[1..] == c5 && c5[1..] == c6 && c6[1..] == [];
    assert FirstFailure(c6) == (if checks[6].0 then Some(checks[6].1) else None);
    assert FirstFailure(c5) == (if checks[5].0 then Some(TypeErr) else FirstFailure(c6));
    assert FirstFailure(c4) == (if checks[4].0 then Some(TypeErr) else FirstFailure(c5));
    assert FirstFailure(c3) == (if checks[3].0 then Some(RangeErr) else FirstFailure(c4));
    assert FirstFailure(c2) == (if checks[2].0 then Some(RangeErr) else FirstFailure(c3));
    assert FirstFailure(c1) == (if checks[1].0 then Some(RangeErr) else FirstFailure(c2));
  }

  /** `start` is called last: when any earlier check fails, the outcome of
      construction does not depend on what `start` would do. */
  lemma StartNotCalledAfterFailedCheck(transformer: Transformer, writableStrategy: Strategy, readableStrategy: Strategy,
                                       readableId: nat, writableId: nat, callStart: StartCall, otherStart: StartCall)
    requires FirstFailure(ConstructionChecks(transformer, writableStrategy, readableStrategy, callStart)[..6]).Some?
    ensures Construct(transformer, writableStrategy, readableStrategy, readableId, writableId, callStart)
         == Construct(transformer, writableStrategy, readableStrategy, readableId, writableId, otherStart)
  {
    var checks := ConstructionChecks(transformer, writableStrategy, readableStrategy, callStart)[..6];
    var c1, c2, c3, c4, c5 := checks[1..], checks[2..], checks[3..], checks[4..], checks[5..];
    assert c1[1..] == c2 && c2[1..] == c3 && c3[1..] == c4 && c4[1..] == c5 && c5[1..] == [];
    assert FirstFailure(c5) == (if checks[5].0 then Some(TypeErr) else None);
    assert FirstFailure(c4) == (if checks[4].0 then Some(TypeErr) else FirstFailure(c5));
    assert FirstFailure(c3) == (if checks[3].0 then Some(RangeErr) else FirstFailure(c4));
    assert FirstFailure(c2) == (if checks[2].0 then Some(RangeErr) else FirstFailure(c3));
    assert FirstFailure(c1) == (if checks[1].0 then Some(RangeErr) else FirstFailure(c2));
  }

  /** What `start` throws is what the constructor throws, once every other
      check has passed. */
  lemma StartThrowRethrown(transformer: Transformer, writableStrategy: Strategy, readableStrategy: Strategy,
                           readableId: nat, writableId: nat, callStart: StartCall)
    requires transformer.writableType == Undefined && transformer.readableType == Undefined
    requires OrDefault(writableStrategy.highWaterMark, 1) >= 0 && OrDefault(readableStrategy.highWaterMark, 0) >= 0
    requires transformer.transform == Undefined || transformer.transform.Fn?
    requires transformer.flush == Undefined || transformer.flush.Fn?
    requires transformer.start.Fn? && callStart(transformer.start.fid).Err?
    ensures Construct(transformer, writableStrategy, readableStrategy, readableId, writableId, callStart)
         == Err(callStart(transformer.start.fid).error)
  {
  }

  /** A `flush` field that is present but not a function is a TypeError
      when everything checked before it passes, and `start` is not called. */
  lemma NonFunctionFlushRejected(transformer: Transformer, writableStrategy: Strategy, readableStrategy: Strategy,
                                 readableId: nat, writableId: nat, callStart: StartCall)
    requires transformer.writableType == Undefined && transformer.readableType == Undefined
    requires OrDefault(writableStrategy.highWaterMark, 1) >= 0 && OrDefault(readableStrategy.highWaterMark, 0) >= 0
    requires transformer.transform == Undefined || transformer.transform.Fn?
    requires transformer.flush != Undefined && !transformer.flush.Fn?
    ensures Construct(transformer, writableStrategy, readableStrategy, readableId, writableId, callStart) == Err(TypeErr)
  {
  }

  /** A defined `writableType` is a RangeError whatever else the transformer
      and the strategies hold: it is checked before anything else. */
  lemma WritableTypeCheckedFirst(transformer: Transformer, writableStrategy: Strategy, readableStrategy: Strategy,
                                 readableId: nat, writableId: nat, callStart: StartCall)
    requires transformer.writableType != Undefined
    ensures var r := Construct(transformer, writableStrategy, readableStrategy, readableId, writableId, callStart);
            r.Err? && r.error == RangeErr
  {
  }

  /** A defined `readableType` is a RangeError once the writable side is
      valid, whatever the readable strategy and the `transform` field hold. */
  lemma ReadableTypeRejected(transformer: Transformer, writableStrategy: Strategy, readableStrategy: Strategy,
                             readableId: nat, writableId: nat, callStart: StartCall)
    requires transformer.readableType != Undefined
    ensures var r := Construct(transformer, writableStrategy, readableStrategy, readableId, writableId, callStart);
            r.Err? && r.error == RangeErr
  {
  }

  /** A `transform` field that is present but not a function is a TypeError
      when everything checked before it passes. */
  lemma NonFunctionTransformRejected(transformer: Transformer, writableStrategy: Strategy, readableStrategy: Strategy,
                                     readableId: nat, writableId: nat, callStart: StartCall)
    requires transformer.writableType == Undefined && transformer.readableType == Undefined
    requires OrDefault(writableStrategy.highWaterMark, 1) >= 0 && OrDefault(readableStrategy.highWaterMark, 0) >= 0
    requires transformer.transform != Undefined && !transformer.transform.Fn?
    ensures var r := Construct(transformer, writableStrategy, readableStrategy, readableId, writableId, callStart);
            r.Err? && r.error == TypeErr
  {
  }

  /** Unspecified high-water marks become 1 on the writable side and 0 on the
      readable side; a missing `transform` selects the identity algorithm. */
  lemma DefaultsApplied(transformer: Transformer, writableStrategy: Strategy, readableStrategy: Strategy,
                        readableId: nat, writableId: nat, callStart: StartCall)
    ensures var r := Construct(transformer, writableStrategy, readableStrategy, readableId, writableId, callStart);
            && (r.Ok? && writableStrategy.highWaterMark.None? ==> r.value.config.writableHighWaterMark == 1)
            && (r.Ok? && readableStrategy.highWaterMark.None? ==> r.value.config.readableHighWaterMark == 0)
            && (r.Ok? && writableStrategy.highWaterMark.Some? ==> r.value.config.writableHighWaterMark == writableStrategy.highWaterMark.value)
            && (r.Ok? && readableStrategy.highWaterMark.Some? ==> r.value.config.readableHighWaterMark == readableStrategy.highWaterMark.value)
            && (r.Ok? ==> (r.value.config.algorithm == Identity <==> transformer.transform == Undefined))
  {
  }

  /** The `readable` getter: a TypeError unless the receiver is a
      TransformStream, whose readable stream it returns. */
  function GetReadable(o: Receiver): (r: Result<nat>)
    ensures r.Err? <==> !o.TransformStreamObject?
    ensures r.Err? ==> r.error == TypeErr
  {
    if !o.TransformStreamObject? then Err(TypeErr) else Ok(o.readable)
  }

  /** The `writable` getter: a TypeError unless the receiver is a
      TransformStream, whose writable stream it returns. */
  function GetWritable(o: Receiver): (r: Result<nat>)
    ensures r.Err? <==> !o.TransformStreamObject?
    ensures r.Err? ==> r.error == TypeErr
  {
    if !o.TransformStreamObject? then Err(TypeErr) else Ok(o.writable)
  }

  /** The accessors of a constructed TransformStream return exactly the two
      streams construction created, and they are distinct when the ids are. */
  lemma AccessorsReturnOwnedStreams(transformer: Transformer, writableStrategy: Strategy, readableStrategy: Strategy,
                                    readableId: nat, writableId: nat, callStart: StartCall)
    ensures var r := Construct(transformer, writableStrategy, readableStrategy, readableId, writableId, callStart);
            r.Ok? ==> GetReadable(r.value) == Ok(readableId) && GetWritable(r.value) == Ok(writableId)
  {
  }

  /** One call of a transform algorithm: the chunks it handed to the
      controller's enqueue and the promise it returned. */
  datatype Invocation = Invocation(handed: seq<Value>, result: Promise<()>)

  /** The identity transform algorithm: enqueue the chunk as it is; a throw
      from the enqueue becomes a rejected promise instead of a throw. */
  function IdentityTransform(chunk: Value, enqueue: Value -> Result<()>): (r: Invocation)
    ensures r.handed == [chunk]
    ensures r.result.IsSettled()
    ensures r.result.Rejected? <==> enqueue(chunk).Err?
    ensures r.result.Rejected? ==> r.result.reason == enqueue(chunk).error
  {
    var outcome := enqueue(chunk);
    if outcome.Err? then Invocation([chunk], Rejected(outcome.error))
    else Invocation([chunk], Fulfilled(()))
  }
}

=== FILE: writable_stream.dfy ===
/** The public API layer of WritableStream: the constructor's type check and
    defaults, the brand-checked `locked`, `abort` and `getWriter`, and the
    defaults of `createWritableStream`. The writable state machine lives in a
    file that is not part of this model: `writableStreamAbort` is an opaque
    call whose invocations (their reasons) are recorded, and locking is a flag. */
module WritableStream {
  import opened JsValues
  import opened SharedInternals

  /** The field of an underlying sink the constructor checks. */
  datatype Sink = Sink(sinkType: Value)

  /** What the controller is set up with. */
  datatype Config = Config(highWaterMark: nat, size: SizeAlgorithm)

  /** A receiver of the API methods: a WritableStream (with the reasons of
      every `writableStreamAbort` it received) or any other object. */
  datatype Receiver =
    | WritableStreamObject(id: nat, locked: bool, abortCalls: seq<Value>, config: Config)
    | OtherObject

  /** A writer request: `new WritableStreamDefaultWriter(stream)` for the
      stream with this id. The writer's own constructor is not modelled. */
  datatype WriterRequest = NewWriter(stream: nat)

  /** `new WritableStream(sink, strategy)`, with the new stream's id as a
      parameter. */
  function Construct(id: nat, sink: Sink, strategy: Strategy): (r: Result<Receiver>)
    ensures sink.sinkType != Undefined ==> r.Err? && r.error == RangeErr
    ensures r.Err? <==> sink.sinkType != Undefined || (strategy.highWaterMark.Some? && strategy.highWaterMark.value < 0)
    ensures r.Err? ==> r.error == RangeErr
    ensures r.Ok? ==> r.value.WritableStreamObject? && r.value.id == id
    ensures r.Ok? ==> !r.value.locked && r.value.abortCalls == []
    ensures r.Ok? && strategy.highWaterMark.None? ==> r.value.config.highWaterMark == 1
    ensures r.Ok? && strategy.highWaterMark.Some? ==> r.value.config.highWaterMark == strategy.highWaterMark.value
    ensures r.Ok? ==> (r.value.config.size.ConstantOne? <==> strategy.size.None?)
  {
    if sink.sinkType != Undefined then Err(RangeErr)
    else
      var size := MakeSizeAlgorithm(strategy.size);
      var hwm := ValidateAndNormalizeHighWaterMark(
        if strategy.highWaterMark.None? then 1 else strategy.highWaterMark.value);
      if hwm.Err? then Err(hwm.error)
      else Ok(WritableStreamObject(id, false, [], Config(hwm.value, size)))
  }

  /** The `locked` getter. */
  function Locked(o: Receiver): (r: Result<bool>)
    ensures r.Err? <==> !o.WritableStreamObject?
    ensures r.Err? ==> r.error == TypeErr
    ensures r.Ok? ==> (r.value <==> o.locked)
  {
    if !o.WritableStreamObject? then Err(TypeErr) else Ok(o.locked)
  }

  /** `abort(reason)`: a rejected promise on a non-WritableStream or a locked
      stream; otherwise the abort is handed to `writableStreamAbort`, whose
      promise stays pending in this model. */
  function Abort(o: Receiver, reason: Value): (r: (Receiver, Promise<()>))
    ensures !o.WritableStreamObject? ==> r.1 == Rejected(TypeErr)
    ensures o.WritableStreamObject? && o.locked ==> r.1 == Rejected(TypeErr)
    ensures r.1.Rejected? <==> !o.WritableStreamObject? || o.locked
    ensures r.1.Rejected? ==> r.0 == o
    ensures o.WritableStreamObject? && !o.locked ==> r == (o.(abortCalls := o.abortCalls + [reason]), Pending)
  {
    if !o.WritableStreamObject? then (o, Rejected(TypeErr))
    else if o.locked then (o, Rejected(TypeErr))
    else (o.(abortCalls := o.abortCalls + [reason]), Pending)
  }

  /** `getWriter()`: a TypeError unless the receiver is a WritableStream.
      The writer constructor refuses a stream that is already locked with a
      TypeError and otherwise locks it; that constructor is in a file that is
      not part of this model, and its lock check follows the Streams
      Standard's SetUpWritableStreamDefaultWriter. */
  function GetWriter(o: Receiver): (r: (Receiver, Result<WriterRequest>))
    ensures r.1.Err? <==> !o.WritableStreamObject? || o.locked
    ensures r.1.Err? ==> r.1.error == TypeErr && r.0 == o
    ensures r.1.Ok? ==> r.0 == o.(locked := true) && r.1.value.stream == o.id
  {
    if !o.WritableStreamObject? then (o, Err(TypeErr))
    else if o.locked then (o, Err(TypeErr))
    else (o.(locked := true), Ok(NewWriter(o.id)))
  }

  /** `createWritableStream(...)`: the internal factory. Its caller must pass a
      non-negative high-water mark if it passes one at all. */
  function CreateWritableStream(id: nat, highWaterMark: Option<int>, sizeAlgorithm: Option<SizeAlgorithm>): (r: Receiver)
    requires highWaterMark.Some? ==> highWaterMark.value >= 0
    ensures r.WritableStreamObject? && r.id == id && !r.locked && r.abortCalls == []
    ensures highWaterMark.None? ==> r.config.highWaterMark == 1
    ensures highWaterMark.Some? ==> r.config.highWaterMark == highWaterMark.value
    ensures sizeAlgorithm.None? ==> r.config.size.ConstantOne?
    ensures sizeAlgorithm.Some? ==> r.config.size == sizeAlgorithm.value
  {
    var hwm: nat := if highWaterMark.None? then 1 else highWaterMark.value;
    var size := if sizeAlgorithm.None? then ConstantOne else sizeAlgorithm.value;
    WritableStreamObject(id, false, [], Config(hwm, size))
  }

  /** The public constructor and the internal factory build the same stream
      from the same strategy: for every size function and every valid
      high-water mark, given or left out, constructing with a type-less
      sink equals the factory called with that mark and the size algorithm
      made from that size function. */
  lemma ConstructorAgreesWithFactory(id: nat, size: Option<SizeFunction>, highWaterMark: Option<nat>)
    ensures var c := Construct(id, Sink(Undefined), Strategy(size, if highWaterMark.None? then None else Some(highWaterMark.value)));
            && c.Ok?
            && c.value == CreateWritableStream(id, if highWaterMark.None? then None else Some(highWaterMark.value), Some(MakeSizeAlgorithm(size)))
  {
  }

  /** Whenever `locked` reports true, `abort` rejects with a TypeError and
      the stream is left as it was. */
  lemma LockedStreamRefusesAbort(o: Receiver, reason: Value)
    ensures Locked(o) == Ok(true) ==> Abort(o, reason).1 == Rejected(TypeErr) && Abort(o, reason).0 == o
  {
  }

  /** Taking a writer from an unlocked stream locks it: `locked` then
      reports true, a second `getWriter` is refused with a TypeError, and
      `abort` is refused without reaching `writableStreamAbort`. */
  lemma GetWriterLocks(o: Receiver, reason: Value)
    requires o.WritableStreamObject? && !o.locked
    ensures var w := GetWriter(o);
      && w.1.Ok?
      && Locked(w.0) == Ok(true)
      && GetWriter(w.0).1 == Err(TypeErr)
      && Abort(w.0, reason) == (w.0, Rejected(TypeErr))
  {
  }
}
